=== FILE: README.md ===
# llvm-nanobind: lifetimes of native handles, the disassembly driver, the input filter and the assembly preview

A Dafny model of four pieces of the llvm-nanobind repository, with proofs of
what each piece promises.

- **Ownership and lifetime layer** (`src/llvm-nanobind.cpp`). This covers:
  - the `LLVMContext` and `LLVMModule` wrappers;
  - the scoped guards `LLVMContextManager` and `LLVMModuleManager`;
  - the static wrapper returned by `global_context()`.

  The native toolkit is an abstract pool of handles (module `Native`). The pool records:
  - which contexts, modules and memory buffers are live;
  - which context each module lives in;
  - the history of creations and disposals.

  Each wrapper operation returns the pool it leaves behind (module `Lifetime`). An operation can end in one of three ways:
  - `Ok`: it returns normally;
  - `Raised`: it raises `LLVMException`;
  - `Undefined`: it hands the toolkit a handle that is null, global, already disposed, or owned by an object that no longer exists.

  Module `Session` is a small interpreter of what a Python program can do with the bindings:
  - fetch the global context;
  - create, enter, exit and release context managers;
  - create, enter, exit and release module managers.

  The bindings check nothing about lifetimes. The rules a Python program must follow are the predicate `Session.Allowed`. The main theorem, `Session.RunIsSafe`, says that a run which follows these rules never reaches undefined behaviour and never disposes a native handle twice. Two further lemmas each build a run that breaks one rule and show the undefined behaviour it reaches.
- **Lazy-load buffer rule** (module `LazyLoad`). A memory buffer given to a lazy bitcode load is absorbed by the module, which frees it when the module is disposed. A buffer given to an eager load stays with the caller.
- **The `--disassemble` command** (`llvm_c_test/disassemble.py`, module `Disassemble`). This covers:
  - the fixed-width row printer `pprint`;
  - the byte walk of `do_disassemble`, with the native disassembler as an oracle;
  - the line handler `handle_line`;
  - the command loop.

  Python's `int(token, 16)` and the `x`/`02x`/`04x` formats are in module `Hex`.
- **The input filter** `tokenize_stdin` (`llvm_c_test/helpers.py`, module `Tokenize`). It is a function from input lines to the token lists handed to the callback. Its whitespace is the set Python's `str.isspace` accepts.
- **The assembly preview** of the code-generation test (`tests/test_target_codegen.cpp`, module `AsmPreview`). The test echoes at most 200 characters or five lines, then a truncation marker.

Two points the model settles by following the code:

- The code has no registry that enforces single destruction or destroys scopes in reverse order. A module manager keeps a raw `LLVMContext*` (`src/llvm-nanobind.cpp:103`), and nothing checks that it is still valid. So the model checks nothing either: the lifetime discipline is the precondition `Session.Allowed`, not something the bindings enforce.
- The lazy-load file disagrees with itself. Its hypothesis and the C driver it quotes (`test_memory_lazy_module.py:22-29`) say the lazy module frees the absorbed buffer, so the caller must not. The message at `test_memory_lazy_module.py:343-344` says the buffer is not disposed with the module. The model follows `test_memory_lazy_module.py:22-29`: the module owns the buffer and frees it.

## Model

| member | source | states |
|---|---|---|
| Lifetime.NewContext | src/llvm-nanobind.cpp:23-31 | A global wrapper fetches the process-global context and creates nothing. Any other wrapper creates exactly one fresh context, owns it, and changes nothing else in the pool. |
| Lifetime.DestroyContext | src/llvm-nanobind.cpp:49-54 | The destructor disposes the reference exactly when it is non-null and the wrapper is not global; otherwise the pool is unchanged. A non-null, non-global reference that is no longer live is a fault. |
| Lifetime.MoveConstructTransfers | src/llvm-nanobind.cpp:33-36 | Moving out of a non-global wrapper transfers the reference and nulls the source. The moved-from wrapper disposes nothing. Destroying both, in either order, disposes exactly what destroying the source alone would. |
| Lifetime.MoveFromGlobalDisposesGlobal | src/llvm-nanobind.cpp:33-36 | As written, the move constructor does not copy the global flag. Destroying the global wrapper disposes nothing, but destroying a wrapper moved out of it disposes the process-global context. |
| Lifetime.MoveConstructFixedTransfers | src/llvm-nanobind.cpp:33-36 | With the flag copied, the move transfers ownership for every source, global or not. Destroying both wrappers, in either order, equals destroying the source alone. |
| Lifetime.MoveConstruct | src/llvm-nanobind.cpp:33-36 | As written, the reference moves to the new wrapper, which is never global. The source is left inert, null with its flag unchanged, so its destructor disposes nothing. |
| Lifetime.MoveConstructFixed | src/llvm-nanobind.cpp:33-36 | With the flag copied, the new wrapper is the source exactly as it was, and the source is left inert. |
| Lifetime.MoveAssign | src/llvm-nanobind.cpp:38-47 | Self-assignment changes nothing. Otherwise the target's old reference goes to the native disposer with no null or global check. The target then holds the source's reference but keeps its own flag, and the source ends null and not global. |
| Lifetime.MoveAssignSafe | src/llvm-nanobind.cpp:38-47 | Suppose the target owns a live context and the source is not global. Then assignment disposes the target's context once, and destroying both operands afterwards disposes exactly what destroying the two originals would. |
| Lifetime.MoveAssignIntoEmptyDisposesNull | src/llvm-nanobind.cpp:40-41 | As written, assigning into a moved-from (null) wrapper hands a null reference to the native context disposer. |
| Lifetime.MoveAssignFromGlobalDisposesGlobal | src/llvm-nanobind.cpp:42-44 | As written, assigning the global wrapper into an owning one leaves the target holding the global reference with its flag false, so its destructor disposes the process-global context. |
| Lifetime.MoveAssignFixed | src/llvm-nanobind.cpp:38-47 | The corrected assignment succeeds exactly when destroying the target would. On success the pool is the one destroying the target leaves, the target is then the source as it was (reference and global flag), and the source is null and not global. Self-assignment changes nothing. |
| Lifetime.MoveAssignFixedIsDestroyThenMove | src/llvm-nanobind.cpp:38-47 | The corrected assignment behaves as "destroy the target, then take the source over" for every pair of distinct wrappers. On success the target is the source as it was, with its flag, and the source is null and not global. Destroying both operands afterwards equals destroying the two originals. |
| Lifetime.NewModule | src/llvm-nanobind.cpp:60-65 | The module wrapper creates one fresh module, with the given name, in the given context's native reference, and nothing else in the pool changes. Without a live context there is no module. |
| Lifetime.DestroyModule | src/llvm-nanobind.cpp:67-72 | The module destructor disposes the reference exactly when it is non-null. Disposing a live module whose context is live and that absorbed no buffer records exactly one disposal; in every case the result is the native module disposal's, which also frees an absorbed buffer. |
| Lifetime.EnterContext | src/llvm-nanobind.cpp:82-87 | `enter` raises "already entered" exactly when a context is held. Otherwise it creates exactly one fresh, owned context and holds it, and nothing else in the pool changes. |
| Lifetime.ExitContext | src/llvm-nanobind.cpp:89-94 | `exit` raises "not entered" when nothing is held. Otherwise it disposes the held context once and returns to empty, and nothing else in the pool changes. |
| Lifetime.DropContextManager | src/llvm-nanobind.cpp:96-98 | A context manager that is collected destroys what its owning pointer still holds, exactly as the context destructor does, and nothing when it is empty. For a live owned context, that context goes, its disposal is recorded, and nothing else in the pool changes. |
| Lifetime.ContextManagerRoundTrip | src/llvm-nanobind.cpp:82-94 | Enter and exit strictly alternate, and the manager can be entered again after exit. One round creates a context and disposes that same context, and the live contexts are as before. |
| Lifetime.ContextManagerDropReleasesOnce | src/llvm-nanobind.cpp:79-98 | A manager dropped while entered releases its context exactly once. One dropped after `exit` releases nothing more. |
| Lifetime.EnterModule | src/llvm-nanobind.cpp:112-117 | `enter` raises exactly when a module is held. Otherwise, in a live context, it creates exactly one module with the stored name in the context the stored pointer designates. |
| Lifetime.ExitModule | src/llvm-nanobind.cpp:119-125 | `exit` raises when nothing is held. Otherwise it returns to empty and succeeds exactly when the native module disposal does. A held null module disposes nothing. On success the held module is no longer live, no other module or context changes, and the history gains exactly that module's disposal, followed by its absorbed buffer's disposal when it has one. |
| Lifetime.DropModuleManager | src/llvm-nanobind.cpp:127-129 | A module manager that is collected destroys what its owning pointer still holds, and nothing when it is empty. |
| Session.Step | src/llvm-nanobind.cpp:79-188 | One call of the bindings as a Python program makes it. A call that returns normally leaves the native pool valid. |
| Session.Run | src/llvm-nanobind.cpp:79-188 | A sequence of calls never ends in an exception, because the program carries on after a raised `LLVMException`. A run that ends normally leaves the native pool valid. |
| Session.Allowed | src/llvm-nanobind.cpp:79-130 | The rules a program must keep, because the wrappers do not check them. A manager is used only while it exists. A context is exited or released only while no module created in it is still held. A module manager is entered only while the context object it was created on still exists. |
| Session.GlobalContextIsSingleton | src/llvm-nanobind.cpp:153-159 | `global_context()` builds one global-flagged wrapper over the process-global context and creates nothing. Every later call returns that same wrapper and changes nothing. |
| Session.StepIsSafe | src/llvm-nanobind.cpp:79-130 | An allowed call in a world satisfying the invariant never reaches undefined behaviour. It keeps the invariant: every held wrapper owns a distinct live handle, and every held module's context is live. It only extends the native history. |
| Session.RunIsSafe | src/llvm-nanobind.cpp:19-130 | A sequence of allowed calls never reaches undefined behaviour. It keeps the invariant, extends the native history, and that history disposes no handle twice. |
| Session.NoHandleDisposedTwice | src/llvm-nanobind.cpp:19-130 | From a fresh process, a program that follows the rules disposes no native handle twice and never disposes the global context. |
| Session.NestedWithIsDisciplined | src/llvm-nanobind.cpp:79-129 | The calls made by a module `with` block nested in a context `with` block follow the rules. Afterwards only the global context is live. |
| Session.ExitingContextFirstIsUseAfterFree | src/llvm-nanobind.cpp:101-125 | Leaving a context while a module created in it is still entered makes the module's later exit use the freed context. So "the context outlives the module" is a rule the caller must keep. |
| Session.EnteringAfterContextExitDangles | src/llvm-nanobind.cpp:103-117 | Entering a module manager after its context manager was exited dereferences the dangling raw `LLVMContext*`. |
| LazyLoad.Load | test_memory_lazy_module.py:22-29 | A load needs a live context and a live buffer. It creates one module, which absorbs the buffer exactly when the load is lazy. |
| LazyLoad.CallerCleanup | test_memory_lazy_module.py:27-29 | After a lazy load the caller leaves the buffer alone. After an eager load it disposes the buffer, succeeding exactly when the buffer is live: the buffer is then gone, nothing else changes, and the history gains exactly its disposal. |
| LazyLoad.ConditionalCleanupDisposesBufferOnce | test_memory_lazy_module.py:22-29 | Load, caller cleanup, then module disposal never faults. The buffer is disposed exactly once: by the caller after an eager load, by the module after a lazy one. |
| LazyLoad.UnconditionalCleanupDoubleFrees | test_memory_lazy_module.py:22-25 | Disposing the buffer after a lazy load makes the later module disposal free it a second time. |
| Tokenize.Strip | llvm_c_test/helpers.py:20 | The stripped line is empty, or it neither starts nor ends with whitespace. |
| Tokenize.Split | llvm_c_test/helpers.py:25 | The token list is empty exactly when the line is all whitespace. |
| Tokenize.TrimLeft | llvm_c_test/helpers.py:20 | The result is a suffix of the line. What was removed is all whitespace, and the result does not start with whitespace. |
| Tokenize.TrimRight | llvm_c_test/helpers.py:20 | The result is a prefix of the line. What was removed is all whitespace, and the result does not end with whitespace. |
| Tokenize.StripIsInfix | llvm_c_test/helpers.py:20 | `strip()` keeps the infix of the line that starts where the leading whitespace ends. What it drops on either side is whitespace. |
| Tokenize.SplitGivesWords | llvm_c_test/helpers.py:25 | Every token `split()` returns is non-empty and contains no whitespace. |
| Tokenize.SplitKeepsEveryOtherChar | llvm_c_test/helpers.py:25 | `split()` loses exactly the whitespace: the tokens run together are the line's non-whitespace characters, in order. |
| Tokenize.SplitEmptyIffBlank | llvm_c_test/helpers.py:25-26 | A line yields no tokens if and only if it is all whitespace. |
| Tokenize.SplitJoinRoundTrip | llvm_c_test/helpers.py:25 | Splitting non-empty, whitespace-free words joined by single spaces gives the words back. |
| Tokenize.TokenizeLines | llvm_c_test/helpers.py:18-27 | The callback is called at most once per input line, and never with an empty token list. |
| Tokenize.KeptLines | llvm_c_test/helpers.py:20-22 | Every line that survives the filter is non-blank once stripped and does not start with `;`. |
| Tokenize.KeptLineHasTokens | llvm_c_test/helpers.py:20-27 | A line that survives the filter always has at least one token, so the guard on an empty token list never fires. |
| Tokenize.TokenizeIsSplitOfKept | llvm_c_test/helpers.py:18-27 | The callback runs exactly once per kept line, in input order, with that line's whitespace-separated tokens. |
| Tokenize.IndentedCommentIsDropped | llvm_c_test/helpers.py:20-22 | A comment line is dropped even when whitespace comes before the `;`. |
| Tokenize.BlankLineIsDropped | llvm_c_test/helpers.py:20-22 | A line of whitespace only is dropped. |
| Hex.ToHex | llvm_c_test/disassemble.py:22 | The `x` rendering is non-empty lowercase hex with no leading zero (unless the number is 0), and its digits denote the number. |
| Hex.PadHex | llvm_c_test/disassemble.py:22 | The `0Nx` rendering is zero-padded to at least N digits and never cut. It denotes the number. |
| Hex.Hex2 | llvm_c_test/disassemble.py:27 | The `02x` rendering of a byte is exactly two lowercase hex digits denoting the byte. |
| Hex.ParseHex | llvm_c_test/disassemble.py:95 | An empty token is rejected, and a token parses to a negative value only when it starts with `-`. |
| Hex.ToHexRoundTrip | llvm_c_test/disassemble.py:95 | `int(token, 16)` reads the `x` rendering back as the same number. |
| Hex.PadHexRoundTrip | llvm_c_test/disassemble.py:95 | `int(token, 16)` reads the zero-padded rendering back as the same number, for every width. |
| Hex.PrefixedRoundTrip | llvm_c_test/disassemble.py:95 | A `0x`-prefixed rendering reads back as the same number. |
| Hex.NegatedRoundTrip | llvm_c_test/disassemble.py:95 | A `-` before a rendering reads back as the negated number. |
| Hex.StrangeCharRejected | llvm_c_test/disassemble.py:95 | A token containing a character that is not a hex digit, sign, `x`/`X` or `_` is rejected. |
| Disassemble.FormatRow | llvm_c_test/disassemble.py:15-32 | The printed row is as long as the offset field, the 3-character separator, 24 column characters, the 3-character gap and the text together. |
| Disassemble.RowLayout | llvm_c_test/disassemble.py:22-32 | For an offset below 0x10000 the row is: four hex digits, `:` and two spaces, eight 3-character columns, three spaces, then the instruction text. |
| Disassemble.OffsetReadsBack | llvm_c_test/disassemble.py:22 | The first four characters of a row read back, as hex, as the row's offset. |
| Disassemble.Column | llvm_c_test/disassemble.py:26-29 | Every byte column is exactly three characters wide, whether it holds a byte or is blank. |
| Disassemble.Columns | llvm_c_test/disassemble.py:25-29 | Columns `i` to 7 take exactly three characters each, so the byte area is always 24 characters wide. |
| Disassemble.ColumnReadsBack | llvm_c_test/disassemble.py:25-29 | Column `i` of a printed row holds the row's `i`-th byte as two hex digits and a space, which read back as that byte. Past the row's bytes it holds three spaces. |
| Disassemble.Step | llvm_c_test/disassemble.py:56-64 | The row for a position starts there and covers a non-empty slice of the buffer. When nothing decodes it is one byte with text `\t???`; otherwise it is exactly the decoded number of bytes, with the decoder's text. |
| Disassemble.WalkFrom | llvm_c_test/disassemble.py:54-64 | The walk from a position prints at most one row per remaining byte. While bytes remain, its first row starts at that position. |
| Disassemble.FormatRows | llvm_c_test/disassemble.py:60-63 | Each row is printed as exactly one line, in order, and line `k` is the `pprint` of row `k`. |
| Disassemble.WalkFromTiles | llvm_c_test/disassemble.py:54-64 | The walk's rows tile the rest of the buffer in order, each as the disassembler decoded it, with at most one row per byte. |
| Disassemble.TilesFlatten | llvm_c_test/disassemble.py:57-64 | Rows that tile a stretch of the buffer give back exactly that stretch when their bytes are run together. |
| Disassemble.Walk | llvm_c_test/disassemble.py:54-64 | The loop ends at the end of the buffer. Its rows tile the buffer from offset 0 and each is faithful to the disassembler. Their bytes, run together, are the whole buffer. |
| Disassemble.Disassembly | llvm_c_test/disassemble.py:45-64 | An invalid disassembler yields exactly one error line. A valid one yields at most one row per byte, and none exactly when the buffer is empty. Its lines are the formatted rows of a list of rows that tiles the buffer from offset 0, agrees with the disassembler at every offset, and gives back the whole buffer when the bytes are run together; by `Disassemble.FaithfulTilingIsWalk` that list is unique. |
| Disassemble.FaithfulTilingIsWalk | llvm_c_test/disassemble.py:54-64 | Any rows that tile the rest of the buffer and agree with the disassembler at each of their offsets are exactly the rows the walk prints. |
| Disassemble.ParseBytes | llvm_c_test/disassemble.py:89-95 | When the tokens parse, the buffer has `min(tokens, 128)` bytes, and it is marked truncated exactly when tokens were left over. |
| Disassemble.ParseBytesValues | llvm_c_test/disassemble.py:95 | Each byte read is the value of the token in the same place. |
| Disassemble.BadTokenFails | llvm_c_test/disassemble.py:91-95 | A token within the limit that is not a byte makes the line fail. |
| Disassemble.GoodTokensParse | llvm_c_test/disassemble.py:89-95 | When every token within the limit is a byte, the line is read. |
| Disassemble.FirstBadTokenAborts | llvm_c_test/disassemble.py:91-95 | The first token within the limit that is not a byte aborts the line with that token's error. |
| Disassemble.HexTokensParse | llvm_c_test/disassemble.py:89-95 | At most 128 bytes written as two-digit hex tokens are read back unchanged, with no truncation. |
| Disassemble.EffectiveFeatures | llvm_c_test/disassemble.py:85-87 | `NULL` means the empty feature string; any other string passes through unchanged. |
| Disassemble.HandleLine | llvm_c_test/disassemble.py:77-97 | A line with fewer than two tokens prints nothing. Any other line prints the header first. A warning appears only when more than 128 byte tokens were given, and then it is the single truncation warning. |
| Disassemble.WellFormedLine | llvm_c_test/disassemble.py:77-97 | A line of at most 128 byte tokens prints the header, then the disassembly of exactly those bytes, with no warning. |
| Disassemble.LongLineIsTruncated | llvm_c_test/disassemble.py:91-94 | With more than 128 byte tokens, the first 128 bytes are disassembled and a single warning goes to standard error. |
| Disassemble.BadTokenAborts | llvm_c_test/disassemble.py:89-95 | The first bad byte token aborts the line with its error, after the header and before anything is disassembled. |
| Disassemble.NullFeaturesMeanNone | llvm_c_test/disassemble.py:83-87 | `NULL` and an empty feature string configure the same disassembler; only the echoed header differs. |
| Disassemble.InvalidDisassemblerReports | llvm_c_test/disassemble.py:47-49 | A disassembler that cannot be created yields exactly one error line after the header, and no rows. |
| Disassemble.HandleAll | llvm_c_test/disassemble.py:116 | Each token list from the filter is handled on its own, in order. |
| Disassemble.Combine | llvm_c_test/disassemble.py:100-118 | When no line raises, the command does not raise. |
| Disassemble.Command | llvm_c_test/disassemble.py:100-118 | Input in which every line is blank or a comment prints nothing and raises nothing. |
| Disassemble.DroppedLineIsSilent | llvm_c_test/helpers.py:20-22 | Blank and comment lines leave the command's output unchanged. |
| Disassemble.CombineConcatenates | llvm_c_test/disassemble.py:100-118 | A run of lines that completes, followed by more lines, prints the first run's output and then the rest's. |
| Disassemble.CombineStopsAtFirstError | llvm_c_test/disassemble.py:100-118 | The first line that raises ends the command: nothing after it is printed, and its error is the command's. |
| AsmPreview.Preview | tests/test_target_codegen.cpp:261-274 | The echoed text is a prefix of the buffer of at most 200 characters and at most five line feeds. It stops only when the buffer is exhausted, 200 characters are out or the fifth line feed is out, and not earlier. The output is banner, echo, one line feed if needed, then the marker. |
| AsmPreview.FifthNewlineEndsPreview | tests/test_target_codegen.cpp:264-267 | When five line feeds are shown, the last character shown is the fifth: printing stops right after it. |
| AsmPreview.TrailerOnFreshLine | tests/test_target_codegen.cpp:271-274 | The truncation marker always starts a line of its own. A line feed is added if and only if something was echoed and it did not end with one. |

## Left out

- The native toolkit is an abstract pool. This covers context, module and buffer creation and disposal, the disassembler and code generation. The toolkit's code is not part of this model. Handing it a null, global or dead handle is treated as undefined behaviour; this is the conservative reading, because what the toolkit does with them is not visible.
- Lifetime.MoveAssignIntoEmptyDisposesNull: the fault it exhibits assumes the native context disposer rejects a null handle. If the toolkit accepts null there, this path is harmless. The global-flag defect of the assignment (`Lifetime.MoveAssignFromGlobalDisposesGlobal`) does not depend on that assumption.
- The `printf`/`puts` tracing. The nanobind registration block (`src/llvm-nanobind.cpp:133-188`) is modelled only through the calls of `Session.Step`. These are `global_context`, `create_context`, `LLVMContext.create_module`, and `__enter__`/`__exit__` of `LLVMContextManager` and `LLVMModuleManager`.
- The `LLVMContext.discard_value_names` property (`src/llvm-nanobind.cpp:135-145`) and the `LLVMModule.data_layout` property (`src/llvm-nanobind.cpp:173-182`). Each is a pass-through to the toolkit that neither creates nor disposes a handle.
- Python's garbage collector. When a manager is collected is the caller's choice: the `ContextRelease` and `ModuleRelease` calls can happen at any point of a run.
- The arguments of `__exit__`: they are ignored by the code.
- The lazy-load binding code. It is not part of this model, so the rule is stated directly on the pool (`LazyLoad`).
- Standard input and output. Input is a sequence of lines and output a sequence of lines. Standard error is a separate sequence, and the interleaving of the two streams is not modelled.
- The target initialisation calls of `disassemble()`: they are global native set-up with no result.
- `int(token, 16)` also accepts non-ASCII Unicode digits and surrounding whitespace. The tokens come from `split()` and so never hold whitespace; non-ASCII digits are not modelled.
- Only the preview loop of `tests/test_target_codegen.cpp` is modelled: creating the buffer, code generation and `LLVMDisposeMemoryBuffer` are native calls.
- Session.Run: its own contract only says that a run never ends in an exception and that a normal end leaves the pool valid. That the run is safe is `Session.RunIsSafe`.
- AsmPreview.Preview: the buffer is C `char` data walked a byte at a time. The model walks a Dafny string, one character per byte, so the result matches when each byte is read as one character below 256. The contract itself holds for any characters.
- Disassemble.Sound: the native decoder is assumed never to report more bytes than remain after the position it is given, and `Step`, `WalkFrom`, `Walk`, `Disassembly`, `HandleLine`, `HandleAll` and `Command` require this. `do_disassemble` has no such guard (`llvm_c_test/disassemble.py:56-64`). If the decoder claimed more, `pprint` would raise `IndexError` at `llvm_c_test/disassemble.py:27` when fewer than the smaller of the claim and 8 bytes remain. Otherwise `pos` would jump past the end of the buffer and the loop would stop, after one row of fewer bytes than claimed.
- Disposing a context does not cascade to its modules in the pool. In the toolkit, disposing a context also deletes the modules it owns. In the model those modules stay in the pool, and a later disposal of one is labelled a use of the freed context (`UseAfterFree`) rather than a double free. This only relabels behaviour that is already undefined, on paths `Session.Allowed` excludes.
- Session.Step: its own contract only says that a successful call keeps the pool valid. What each call does is stated by the `Lifetime` functions it calls and by `Session.StepIsSafe`.

## Findings

| source | as written | input that shows it | evidently intended | confidence | as-written member | corrected member |
|---|---|---|---|---|---|---|
| src/llvm-nanobind.cpp:33-36 | The move constructor copies the reference but leaves the new wrapper's global flag `false`. | Moving out of the wrapper `global_context()` returns: the new wrapper holds the process-global context with its flag `false`, so its destructor disposes the global context. No Python binding exposes the move constructor, so only C++ code can reach this input. | Copy the global flag with the reference. | not executed | Lifetime.MoveFromGlobalDisposesGlobal | Lifetime.MoveConstructFixedTransfers |
| src/llvm-nanobind.cpp:38-47 | Move assignment hands the target's old reference to the disposer with no null or global check, and keeps the target's own global flag. | Assigning the global wrapper into a wrapper that owns a fresh context: the target ends holding the global context with its flag `false`, so its destructor disposes the global context. No Python binding exposes move assignment, so only C++ code can reach this input. | Guard the disposal as the destructor does, and take the source's flag with its reference. | not executed | Lifetime.MoveAssignFromGlobalDisposesGlobal | Lifetime.MoveAssignFixedIsDestroyThenMove |

=== FILE: asm_preview.dfy ===
/** The assembly preview of the code-generation test: after emitting
    assembly to a memory buffer, the test echoes the start of it, at most 200
    characters and at most five lines, then a truncation marker on a line of
    its own.  The buffer is C `char` data walked one byte at a time; here
    each byte is one character of a Dafny string (a character below 256),
    and the contracts hold for any characters. */
module AsmPreview {

  const MaxChars: nat := 200
  const MaxLines: nat := 5

  const Banner: string := ";\n; Assembly output (first 200 chars or first 5 lines):\n"
  const Trailer: string := "; ... (truncated)\n"

  /** The number of line feeds in `s`. */
  function Newlines(s: string): nat
    decreases |s|
  {
    if s == [] then 0 else Newlines(s[..|s| - 1]) + (if s[|s| - 1] == '\n' then 1 else 0)
  }

  /** The loop of the preview stops before index `n` of `asm`: the buffer is
      exhausted, 200 characters are out, or the fifth line feed is out. */
  ghost predicate StopsAt(asm: string, n: nat)
    requires n <= |asm|
  {
    n == |asm| || n == MaxChars || Newlines(asm[..n]) == MaxLines
  }

  /** Whether the fix-up prints a line feed after the echoed characters. */
  function NeedsNewline(shown: string): bool {
    shown != [] && shown[|shown| - 1] != '\n'
  }

  lemma NewlinesStep(asm: string, i: nat)
    requires i < |asm|
    ensures Newlines(asm[..i + 1]) == Newlines(asm[..i]) + (if asm[i] == '\n' then 1 else 0)
  {
    assert asm[..i + 1][..i] == asm[..i];
  }

  /** The preview: the characters echoed, and everything printed from the
      banner to the truncation marker. */
  method Preview(asm: string) returns (shown: string, out: string)
    ensures |shown| <= |asm| && shown == asm[..|shown|]
    ensures |shown| <= MaxChars && Newlines(shown) <= MaxLines
    ensures StopsAt(asm, |shown|)
    ensures forall n :: 0 <= n < |shown| ==> !StopsAt(asm, n)
    ensures out == Banner + shown + (if NeedsNewline(shown) then "\n" else "") + Trailer
  {
    var lines: nat := 0;
    var printed: nat := 0;
    while printed < |asm| && lines < MaxLines && printed < MaxChars
      invariant printed <= |asm| && printed <= MaxChars && lines <= MaxLines
      invariant lines == Newlines(asm[..printed])
      invariant forall n :: 0 <= n < printed ==> !StopsAt(asm, n)
      decreases |asm| - printed
    {
      NewlinesStep(asm, printed);
      if asm[printed] == '\n' {
        lines := lines + 1;
      }
      printed := printed + 1;
    }
    shown := asm[..printed];
    out := Banner + shown;
    if printed > 0 && asm[printed - 1] != '\n' {
      out := out + "\n";
    }
    out := out + Trailer;
  }

  /** The preview stops right after the fifth line feed: when five are shown,
      the last character shown is one of them. */
  lemma FifthNewlineEndsPreview(asm: string, shown: string)
    requires |shown| <= |asm| && shown == asm[..|shown|]
    requires forall n :: 0 <= n < |shown| ==> !StopsAt(asm, n)
    requires Newlines(shown) == MaxLines
    ensures shown != [] && shown[|shown| - 1] == '\n'
  {
    var m := |shown| - 1;
    assert shown[..m] == asm[..m];
    assert !StopsAt(asm, m);
  }

  /** The truncation marker always starts a line of its own, and what comes
      before it is the banner, the echoed prefix and at most one line feed. */
  lemma TrailerOnFreshLine(shown: string)
    ensures var out := Banner + shown + (if NeedsNewline(shown) then "\n" else "") + Trailer;
            && out[|out| - |Trailer|..] == Trailer
            && out[|out| - |Trailer| - 1] == '\n'
            && out[..|Banner| + |shown|] == Banner + shown
            && |out| == |Banner| + |shown| + |Trailer| + (if NeedsNewline(shown) then 1 else 0)
  {
    var fix: string := if NeedsNewline(shown) then "\n" else "";
    var body := Banner + shown + fix;
    var out := body + Trailer;
    assert out[|out| - |Trailer|..] == Trailer;
    assert out[|out| - |Trailer| - 1] == body[|body| - 1];
    if !NeedsNewline(shown) && shown == [] {
      assert body == Banner;
    } else if !NeedsNewline(shown) {
      assert body[|body| - 1] == shown[|shown| - 1];
    }
    assert out[..|Banner| + |shown|] == body[..|Banner| + |shown|];
  }
}

=== FILE: disassemble.dfy ===
/** The `--disassemble` command of the C-API test driver: each input line
    names a target triple, a feature string and up to 128 hex bytes; the
    bytes are walked instruction by instruction with the native
    disassembler, which appears here only as an oracle, and every
    instruction is printed as one fixed-width row. */
module Disassemble {
  import opened Results
  import opened Hex
  import Tokenize

  type byte = b: int | 0 <= b < 256

  /** The most bytes one input line may carry. */
  const MaxBytes: nat := 128

  const TruncationWarning: string := "Warning: Too long line, truncating"

  /** The text printed for a byte nothing decodes. */
  const Unknown: string := "\t???"

  /** One answer of the disassembler for the instruction at a position: the
      number of bytes it takes (0 when nothing decodes) and its text. */
  datatype Decoded = Decoded(consumed: nat, text: string)

  /** A disassembler as the driver sees it: whether it could be created,
      and its decoding oracle over the whole buffer and a position. */
  datatype Disassembler = Disassembler(valid: bool, decode: (seq<byte>, nat) -> Decoded)

  /** The native decoder never claims more bytes than remain. */
  ghost predicate Sound(d: Disassembler) {
    forall buf: seq<byte>, pos: nat :: pos < |buf| ==> d.decode(buf, pos).consumed <= |buf| - pos
  }

  /** One printed instruction: where it starts, its bytes, its text. */
  datatype Row = Row(offset: nat, bytes: seq<byte>, text: string)

  function End(r: Row): nat {
    r.offset + |r.bytes|
  }

  // ---------------------------------------------------------------------------
  // Row formatting

  /** Column `i` of the byte area: the byte as two hex digits and a space,
      or three spaces once the row's bytes run out. */
  function Column(chunk: seq<byte>, i: nat): (c: string)
    ensures |c| == 3
  {
    if i < |chunk| then Hex2(chunk[i]) + " " else "   "
  }

  /** Columns `i` to 7. */
  function Columns(chunk: seq<byte>, i: nat): (c: string)
    requires i <= 8
    ensures |c| == 3 * (8 - i)
    decreases 8 - i
  {
    if i == 8 then [] else Column(chunk, i) + Columns(chunk, i + 1)
  }

  /** `pprint`: the offset in `04x`, a colon and two spaces, eight byte
      columns, three spaces, then the instruction text. */
  function FormatRow(r: Row): (line: string)
    ensures |line| == |PadHex(r.offset, 4)| + 3 + 24 + 3 + |r.text|
  {
    PadHex(r.offset, 4) + ":  " + Columns(r.bytes, 0) + "   " + r.text
  }

  /** Slices of `a + b` that lie inside one of the parts. */
  lemma SliceLeft<T>(a: seq<T>, b: seq<T>, i: nat, j: nat)
    requires i <= j <= |a|
    ensures (a + b)[i..j] == a[i..j]
  {
  }

  lemma SliceRight<T>(a: seq<T>, b: seq<T>, i: nat, j: nat)
    requires |a| <= i <= j <= |a| + |b|
    ensures (a + b)[i..j] == b[i - |a|..j - |a|]
  {
  }

  lemma {:induction false} ColumnsAt(chunk: seq<byte>, i: nat, k: nat)
    requires i <= k < 8
    ensures Columns(chunk, i)[3 * (k - i)..3 * (k - i) + 3] == Column(chunk, k)
    decreases k - i
  {
    if i == k {
      SliceLeft(Column(chunk, i), Columns(chunk, i + 1), 0, 3);
      assert Column(chunk, i)[0..3] == Column(chunk, i);
    } else {
      ColumnsAt(chunk, i + 1, k);
      SliceRight(Column(chunk, i), Columns(chunk, i + 1), 3 * (k - i), 3 * (k - i) + 3);
    }
  }

  lemma OffsetWidth(n: nat)
    requires n < 0x10000
    ensures |PadHex(n, 4)| == 4
  {
    assert Pow16(4) == 0x10000;
    ToHexLength(n, 4);
  }

  /** Where the five parts of a row sit once it is printed. */
  lemma Layout<T>(h: seq<T>, sep: seq<T>, cols: seq<T>, gap: seq<T>, text: seq<T>)
    requires |h| == 4 && |sep| == 3 && |cols| == 24 && |gap| == 3
    ensures var line := h + sep + cols + gap + text;
            && |line| == 34 + |text|
            && line[..4] == h && line[4..7] == sep && line[7..31] == cols
            && line[31..34] == gap && line[34..] == text
  {
    var line := h + sep + cols + gap + text;
    assert line[..4] == h;
    assert line[4..7] == sep;
    assert line[7..31] == cols;
    assert line[31..34] == gap;
    assert line[34..] == text;
  }

  /** The fixed-width layout of a row whose offset fits in four digits:
      offset, separator, the eight byte columns, a gap, then the text. */
  lemma RowLayout(r: Row)
    requires r.offset < 0x10000
    ensures var line := FormatRow(r);
            && |line| == 34 + |r.text|
            && line[..4] == PadHex(r.offset, 4)
            && line[4..7] == ":  "
            && line[7..31] == Columns(r.bytes, 0)
            && line[31..34] == "   "
            && line[34..] == r.text
  {
    OffsetWidth(r.offset);
    Layout(PadHex(r.offset, 4), ":  ", Columns(r.bytes, 0), "   ", r.text);
  }

  /** The offset field of a printed row reads back as the row's offset. */
  lemma OffsetReadsBack(r: Row)
    requires r.offset < 0x10000
    ensures ParseHex(FormatRow(r)[..4]) == Some(r.offset)
  {
    RowLayout(r);
    PadHexRoundTrip(r.offset, 4);
  }

  /** A slice of a slice is a slice. */
  lemma SliceOfSlice<T>(s: seq<T>, a: nat, b: nat, i: nat, j: nat)
    requires a <= b <= |s| && i <= j <= b - a
    ensures s[a..b][i..j] == s[a + i..a + j]
  {
    var x := s[a..b];
    forall k | 0 <= k < j - i
      ensures x[i..j][k] == s[a + i..a + j][k]
    {
      assert x[i..j][k] == x[i + k] == s[a + i + k];
    }
  }

  /** A byte column, split into its digits and its space. */
  lemma ColumnParts(h: string, c: string)
    requires |h| == 2 && c == h + " "
    ensures c[..2] == h && c[2] == ' '
  {
  }

  /** Column `i` of a printed row holds the row's `i`-th byte in two hex
      digits and a space, or three spaces past the row's bytes. */
  lemma ColumnReadsBack(r: Row, i: nat)
    requires r.offset < 0x10000 && i < 8
    ensures var line := FormatRow(r);
            && |line| >= 34
            && (i < |r.bytes| ==> ParseHex(line[7 + 3 * i..9 + 3 * i]) == Some(r.bytes[i]) && line[9 + 3 * i] == ' ')
            && (i >= |r.bytes| ==> line[7 + 3 * i..10 + 3 * i] == "   ")
  {
    ColumnOfLine(r, i);
    if i < |r.bytes| {
      ByteColumnText(FormatRow(r), 7 + 3 * i, r.bytes[i]);
    }
  }

  /** A byte column anywhere in a line reads back as its byte. */
  lemma ByteColumnText(line: string, at: nat, b: byte)
    requires at + 3 <= |line| && line[at..at + 3] == Hex2(b) + " "
    ensures ParseHex(line[at..at + 2]) == Some(b) && line[at + 2] == ' '
  {
    ColumnParts(Hex2(b), line[at..at + 3]);
    SliceOfSlice(line, at, at + 3, 0, 2);
    HexByteReadsBack(b);
  }

  /** Where column `i` sits in a printed row. */
  lemma ColumnOfLine(r: Row, i: nat)
    requires r.offset < 0x10000 && i < 8
    ensures |FormatRow(r)| >= 34 && FormatRow(r)[7 + 3 * i..10 + 3 * i] == Column(r.bytes, i)
  {
    RowLayout(r);
    ColumnsAt(r.bytes, 0, i);
    SliceOfSlice(FormatRow(r), 7, 31, 3 * i, 3 * i + 3);
  }

  lemma HexByteReadsBack(b: byte)
    ensures ParseHex(Hex2(b)) == Some(b)
  {
    PadHexRoundTrip(b, 2);
  }

  // ---------------------------------------------------------------------------
  // The byte walk

  /** The row printed for the instruction at `pos`: one byte reported as
      unknown when nothing decodes, otherwise exactly the decoded bytes. */
  function Step(decode: (seq<byte>, nat) -> Decoded, buf: seq<byte>, pos: nat): (r: Row)
    requires pos < |buf| && decode(buf, pos).consumed <= |buf| - pos
    ensures r.offset == pos && r.bytes != [] && End(r) <= |buf| && r.bytes == buf[pos..End(r)]
    ensures decode(buf, pos).consumed == 0 ==> |r.bytes| == 1 && r.text == Unknown
    ensures decode(buf, pos).consumed > 0 ==> |r.bytes| == decode(buf, pos).consumed && r.text == decode(buf, pos).text
  {
    var d := decode(buf, pos);
    if d.consumed == 0 then Row(pos, buf[pos..pos + 1], Unknown)
    else Row(pos, buf[pos..pos + d.consumed], d.text)
  }

  /** The rows printed from `pos` to the end of the buffer. */
  function WalkFrom(d: Disassembler, buf: seq<byte>, pos: nat): (rows: seq<Row>)
    requires Sound(d) && pos <= |buf|
    ensures |rows| <= |buf| - pos
    ensures pos < |buf| ==> rows != [] && rows[0].offset == pos
    decreases |buf| - pos
  {
    if pos == |buf| then []
    else
      var r := Step(d.decode, buf, pos);
      [r] + WalkFrom(d, buf, End(r))
  }

  /** `rows` tile `buf[from..upto]`: the first row is the non-empty slice
      of the buffer at `from`, and the rest tile what is left after it. */
  ghost predicate Tiles(rows: seq<Row>, buf: seq<byte>, from: nat, upto: nat)
    decreases |rows|
  {
    if rows == [] then from == upto <= |buf|
    else
      && rows[0].offset == from && rows[0].bytes != [] && End(rows[0]) <= upto <= |buf|
      && rows[0].bytes == buf[from..End(rows[0])]
      && Tiles(rows[1..], buf, End(rows[0]), upto)
  }

  /** A row is what the disassembler said about its offset. */
  ghost predicate RowFaithful(d: Disassembler, buf: seq<byte>, r: Row) {
    var dec := d.decode(buf, r.offset);
    && r.offset < |buf|
    && (dec.consumed == 0 ==> |r.bytes| == 1 && r.text == Unknown)
    && (dec.consumed > 0 ==> |r.bytes| == dec.consumed && r.text == dec.text)
  }

  ghost predicate Faithful(d: Disassembler, buf: seq<byte>, rows: seq<Row>) {
    forall k :: 0 <= k < |rows| ==> RowFaithful(d, buf, rows[k])
  }

  /** The rows' bytes, run together. */
  function Flatten(rows: seq<Row>): seq<byte> {
    if rows == [] then [] else rows[0].bytes + Flatten(rows[1..])
  }

  /** A row that starts where a tiling ends extends it. */
  lemma {:induction false} TilesAppend(rows: seq<Row>, buf: seq<byte>, from: nat, upto: nat, r: Row)
    requires Tiles(rows, buf, from, upto)
    requires r.offset == upto && r.bytes != [] && End(r) <= |buf| && r.bytes == buf[upto..End(r)]
    ensures Tiles(rows + [r], buf, from, End(r))
    decreases |rows|
  {
    if rows == [] {
      assert [] + [r] == [r];
      assert [r][1..] == [];
    } else {
      assert (rows + [r])[0] == rows[0];
      assert (rows + [r])[1..] == rows[1..] + [r];
      TilesAppend(rows[1..], buf, End(rows[0]), upto, r);
    }
  }

  /** Rows that tile a stretch of the buffer give back exactly that stretch. */
  lemma {:induction false} TilesFlatten(rows: seq<Row>, buf: seq<byte>, from: nat, upto: nat)
    requires Tiles(rows, buf, from, upto)
    ensures Flatten(rows) == buf[from..upto]
    decreases |rows|
  {
    if rows != [] {
      var e := End(rows[0]);
      TilesFlatten(rows[1..], buf, e, upto);
      assert buf[from..upto] == buf[from..e] + buf[e..upto];
    }
  }

  /** The walk from `pos` tiles the rest of the buffer, row by row as the
      disassembler decoded it, with at most one row per byte. */
  lemma {:induction false} WalkFromTiles(d: Disassembler, buf: seq<byte>, pos: nat)
    requires Sound(d) && pos <= |buf|
    ensures Tiles(WalkFrom(d, buf, pos), buf, pos, |buf|)
    ensures Faithful(d, buf, WalkFrom(d, buf, pos))
    ensures |WalkFrom(d, buf, pos)| <= |buf| - pos
    decreases |buf| - pos
  {
    if pos < |buf| {
      var r := Step(d.decode, buf, pos);
      var rest := WalkFrom(d, buf, End(r));
      WalkFromTiles(d, buf, End(r));
      var rows := [r] + rest;
      assert WalkFrom(d, buf, pos) == rows;
      assert rows[0] == r && rows[1..] == rest;
      assert forall k :: 1 <= k < |rows| ==> rows[k] == rest[k - 1];
    }
  }

  /** A faithful tiling is the walk: rows that tile the rest of the buffer
      and agree with the disassembler at every offset are exactly the rows
      the walk prints, so the walk is the only way to cover the buffer. */
  lemma {:induction false} FaithfulTilingIsWalk(d: Disassembler, buf: seq<byte>, rows: seq<Row>, pos: nat)
    requires Sound(d) && pos <= |buf|
    requires Tiles(rows, buf, pos, |buf|) && Faithful(d, buf, rows)
    ensures rows == WalkFrom(d, buf, pos)
    decreases |rows|
  {
    if rows != [] {
      var r := Step(d.decode, buf, pos);
      assert RowFaithful(d, buf, rows[0]);
      assert rows[0] == r;
      assert forall k :: 0 <= k < |rows| - 1 ==> rows[1..][k] == rows[k + 1];
      FaithfulTilingIsWalk(d, buf, rows[1..], End(r));
      assert rows == [r] + rows[1..];
    }
  }

  /** `do_disassemble`'s loop: walk the buffer from offset 0, printing one row
      per instruction, until every byte is covered. */
  method Walk(d: Disassembler, buf: seq<byte>) returns (rows: seq<Row>)
    requires Sound(d)
    ensures rows == WalkFrom(d, buf, 0)
    ensures Tiles(rows, buf, 0, |buf|) && Faithful(d, buf, rows)
    ensures Flatten(rows) == buf
  {
    var pos: nat := 0;
    rows := [];
    while pos < |buf|
      invariant pos <= |buf|
      invariant Tiles(rows, buf, 0, pos) && Faithful(d, buf, rows)
      invariant rows + WalkFrom(d, buf, pos) == WalkFrom(d, buf, 0)
      decreases |buf| - pos
    {
      var dec := d.decode(buf, pos);
      var r: Row;
      if dec.consumed == 0 {
        r := Row(pos, buf[pos..pos + 1], Unknown);
      } else {
        r := Row(pos, buf[pos..pos + dec.consumed], dec.text);
      }
      WalkStep(d, buf, pos, rows, r);
      rows := rows + [r];
      pos := End(r);
    }
    assert rows + [] == rows;
    TilesFlatten(rows, buf, 0, |buf|);
  }

  /** One turn of the walk's loop keeps its invariant. */
  lemma WalkStep(d: Disassembler, buf: seq<byte>, pos: nat, rows: seq<Row>, r: Row)
    requires Sound(d) && pos < |buf| && r == Step(d.decode, buf, pos)
    requires Tiles(rows, buf, 0, pos) && Faithful(d, buf, rows)
    requires rows + WalkFrom(d, buf, pos) == WalkFrom(d, buf, 0)
    ensures pos < End(r) <= |buf|
    ensures Tiles(rows + [r], buf, 0, End(r)) && Faithful(d, buf, rows + [r])
    ensures rows + [r] + WalkFrom(d, buf, End(r)) == WalkFrom(d, buf, 0)
  {
    TilesAppend(rows, buf, 0, pos, r);
    assert rows + [r] + WalkFrom(d, buf, End(r)) == rows + WalkFrom(d, buf, pos);
    assert forall k :: 0 <= k < |rows| ==> (rows + [r])[k] == rows[k];
  }

  function FormatRows(rows: seq<Row>): (lines: seq<string>)
    ensures |lines| == |rows|
    ensures forall k :: 0 <= k < |rows| ==> lines[k] == FormatRow(rows[k])
  {
    if rows == [] then [] else [FormatRow(rows[0])] + FormatRows(rows[1..])
  }

  function CreateError(triple: string): string {
    "ERROR: Couldn't create disassembler for triple " + triple
  }

  /** `do_disassemble`: an error line when the disassembler could not be
      created, otherwise one formatted row per decoded instruction, the rows
      covering the buffer in order (by `FaithfulTilingIsWalk` there is only
      one such list of rows). */
  function Disassembly(triple: string, d: Disassembler, buf: seq<byte>): (lines: seq<string>)
    requires Sound(d)
    ensures !d.valid ==> lines == [CreateError(triple)]
    ensures d.valid ==> |lines| <= |buf| && (buf == [] <==> lines == [])
    ensures d.valid ==> exists rows :: && Tiles(rows, buf, 0, |buf|) && Faithful(d, buf, rows)
                                      && Flatten(rows) == buf && lines == FormatRows(rows)
  {
    if !d.valid then [CreateError(triple)]
    else
      WalkFromTiles(d, buf, 0);
      TilesFlatten(WalkFrom(d, buf, 0), buf, 0, |buf|);
      FormatRows(WalkFrom(d, buf, 0))
  }

  // ---------------------------------------------------------------------------
  // Input lines

  /** Why a line aborts the command: Python's `ValueError` from `int` or
      from `bytearray.append`. */
  datatype LineError = NotHex(token: string) | ByteOutOfRange(value: int)

  /** A token `int(token, 16)` accepts with a value a byte can hold. */
  predicate ByteToken(tok: string) {
    var v := ParseHex(tok);
    v.Some? && 0 <= v.value < 256
  }

  function TokenError(tok: string): LineError {
    match ParseHex(tok)
    case None => NotHex(tok)
    case Some(v) => ByteOutOfRange(v)
  }

  datatype Parsed = Bytes(buf: seq<byte>, truncated: bool) | Bad(err: LineError)

  function Min(a: nat, b: nat): nat {
    if a <= b then a else b
  }

  /** The byte loop of `handle_line` with `room` bytes still allowed: tokens
      are converted in order; once the buffer is full and tokens remain, the
      rest are dropped and the line is marked truncated; the first token that
      is not a byte aborts the line. */
  function ParseBytes(toks: seq<string>, room: nat): (r: Parsed)
    ensures r.Bytes? ==> |r.buf| == Min(|toks|, room) && (r.truncated <==> |toks| > room)
    decreases |toks|
  {
    if toks == [] then Bytes([], false)
    else if room == 0 then Bytes([], true)
    else if !ByteToken(toks[0]) then Bad(TokenError(toks[0]))
    else
      match ParseBytes(toks[1..], room - 1)
      case Bad(e) => Bad(e)
      case Bytes(rest, t) => Bytes([ParseHex(toks[0]).value as byte] + rest, t)
  }

  /** Each byte read is the value of the token in the same place. */
  lemma {:induction false} ParseBytesValues(toks: seq<string>, room: nat)
    requires ParseBytes(toks, room).Bytes?
    ensures var buf := ParseBytes(toks, room).buf;
            forall k :: 0 <= k < |buf| ==> ParseHex(toks[k]) == Some(buf[k])
    decreases |toks|
  {
    if toks != [] && room > 0 {
      ParseBytesValues(toks[1..], room - 1);
      var buf := ParseBytes(toks, room).buf;
      var rest := ParseBytes(toks[1..], room - 1).buf;
      assert buf == [ParseHex(toks[0]).value as byte] + rest;
      forall k | 1 <= k < |buf|
        ensures ParseHex(toks[k]) == Some(buf[k])
      {
        assert buf[k] == rest[k - 1] && toks[k] == toks[1..][k - 1];
      }
    }
  }

  /** A token within the limit that is not a byte makes the line fail. */
  lemma {:induction false} BadTokenFails(toks: seq<string>, room: nat, i: nat)
    requires i < Min(|toks|, room) && !ByteToken(toks[i])
    ensures ParseBytes(toks, room).Bad?
    decreases i
  {
    if i > 0 && ByteToken(toks[0]) {
      assert toks[1..][i - 1] == toks[i];
      BadTokenFails(toks[1..], room - 1, i - 1);
    }
  }

  /** A line whose tokens up to the limit are all bytes is read whole. */
  lemma {:induction false} GoodTokensParse(toks: seq<string>, room: nat)
    requires forall k :: 0 <= k < Min(|toks|, room) ==> ByteToken(toks[k])
    ensures ParseBytes(toks, room).Bytes?
    decreases |toks|
  {
    if toks != [] && room > 0 {
      assert ByteToken(toks[0]);
      assert forall k :: 0 <= k < Min(|toks| - 1, room - 1) ==> toks[1..][k] == toks[k + 1];
      GoodTokensParse(toks[1..], room - 1);
    }
  }

  /** The first token within the limit that is not a byte aborts the line,
      with that token's error. */
  lemma {:induction false} FirstBadTokenAborts(toks: seq<string>, room: nat, i: nat)
    requires i < Min(|toks|, room) && !ByteToken(toks[i])
    requires forall j :: 0 <= j < i ==> ByteToken(toks[j])
    ensures ParseBytes(toks, room) == Bad(TokenError(toks[i]))
    decreases i
  {
    if i > 0 {
      assert ByteToken(toks[0]);
      assert forall j :: 0 <= j < i - 1 ==> toks[1..][j] == toks[j + 1];
      FirstBadTokenAborts(toks[1..], room - 1, i - 1);
    }
  }

  /** What one input line produces: lines on standard output, lines on
      standard error, and the error that aborted it, if any. */
  datatype Output = Output(out: seq<string>, err: seq<string>, raised: Option<LineError>)

  function Header(triple: string, features: string): string {
    "triple: " + triple + ", features: " + features
  }

  /** The feature string handed to the disassembler: `NULL` stands for none. */
  function EffectiveFeatures(f: string): (r: string)
    ensures f == "NULL" ==> r == []
    ensures f != "NULL" ==> r == f
  {
    if f == "NULL" then "" else f
  }

  /** `handle_line`, with the disassembler factory `create(triple, features)`
      (the CPU name is always empty). */
  function HandleLine(tokens: seq<string>, create: (string, string) -> Disassembler): (o: Output)
    requires forall t, f :: Sound(create(t, f))
    ensures |tokens| < 2 ==> o == Output([], [], None)
    ensures |tokens| >= 2 ==> o.out != [] && o.out[0] == Header(tokens[0], tokens[1])
    ensures o.err != [] ==> o.err == [TruncationWarning] && |tokens| > 2 + MaxBytes && o.raised.None?
  {
    if |tokens| < 2 then Output([], [], None)
    else
      var triple := tokens[0];
      var header := Header(triple, tokens[1]);
      match ParseBytes(tokens[2..], MaxBytes)
      case Bad(e) => Output([header], [], Some(e))
      case Bytes(buf, truncated) =>
        Output([header] + Disassembly(triple, create(triple, EffectiveFeatures(tokens[1])), buf),
               if truncated then [TruncationWarning] else [], None)
  }

  // ---------------------------------------------------------------------------
  // Properties of one line

  /** The hex tokens of a byte sequence, as a test file writes them. */
  function HexTokens(bytes: seq<byte>): (toks: seq<string>)
    ensures |toks| == |bytes|
    ensures forall k :: 0 <= k < |bytes| ==> toks[k] == Hex2(bytes[k])
  {
    if bytes == [] then [] else [Hex2(bytes[0])] + HexTokens(bytes[1..])
  }

  /** Bytes written as two-digit hex tokens are read back unchanged. */
  lemma HexTokensParse(bytes: seq<byte>)
    requires |bytes| <= MaxBytes
    ensures ParseBytes(HexTokens(bytes), MaxBytes) == Bytes(bytes, false)
  {
    HexTokensReadBack(bytes);
    ParseBytesOfValues(HexTokens(bytes), MaxBytes, bytes);
  }

  /** Token `k` denotes byte `k`, for every `k`. */
  predicate ReadsAs(toks: seq<string>, vals: seq<byte>)
    decreases |toks|
  {
    && |toks| == |vals|
    && (toks == [] || (ParseHex(toks[0]) == Some(vals[0] as int) && ReadsAs(toks[1..], vals[1..])))
  }

  /** Tokens that all fit and each denote a byte are read as those bytes. */
  lemma {:induction false} ParseBytesOfValues(toks: seq<string>, room: nat, vals: seq<byte>)
    requires |toks| <= room && ReadsAs(toks, vals)
    ensures ParseBytes(toks, room) == Bytes(vals, false)
    decreases |toks|
  {
    if toks != [] {
      ParseBytesOfValues(toks[1..], room - 1, vals[1..]);
      ParseBytesCons(toks, room, vals[0]);
      assert vals == [vals[0]] + vals[1..];
    }
  }

  /** One byte token read at the front of the line. */
  lemma ParseBytesCons(toks: seq<string>, room: nat, b: byte)
    requires toks != [] && room > 0 && ParseHex(toks[0]) == Some(b as int)
    ensures ParseBytes(toks, room) == match ParseBytes(toks[1..], room - 1)
                                      case Bad(e) => Bad(e)
                                      case Bytes(rest, t) => Bytes([b] + rest, t)
  {
    assert ByteToken(toks[0]);
  }

  lemma {:induction false} HexTokensReadBack(bytes: seq<byte>)
    ensures ReadsAs(HexTokens(bytes), bytes)
    decreases |bytes|
  {
    if bytes != [] {
      PadHexRoundTrip(bytes[0], 2);
      HexTokensReadBack(bytes[1..]);
      assert HexTokens(bytes)[1..] == HexTokens(bytes[1..]);
    }
  }

  /** A line of at most 128 two-digit byte tokens is disassembled exactly,
      with no warning: the header, then the rows of those bytes. */
  lemma WellFormedLine(triple: string, features: string, bytes: seq<byte>, create: (string, string) -> Disassembler)
    requires forall t, f :: Sound(create(t, f))
    requires |bytes| <= MaxBytes
    ensures var o := HandleLine([triple, features] + HexTokens(bytes), create);
            o == Output([Header(triple, features)] + Disassembly(triple, create(triple, EffectiveFeatures(features)), bytes), [], None)
  {
    var tokens := [triple, features] + HexTokens(bytes);
    assert tokens[2..] == HexTokens(bytes);
    HexTokensParse(bytes);
  }

  /** More than 128 byte tokens: the first 128 bytes are disassembled and a
      single warning goes to standard error. */
  lemma LongLineIsTruncated(tokens: seq<string>, create: (string, string) -> Disassembler)
    requires forall t, f :: Sound(create(t, f))
    requires |tokens| > 2 + MaxBytes
    requires forall k :: 2 <= k < 2 + MaxBytes ==> ByteToken(tokens[k])
    ensures var o := HandleLine(tokens, create);
            && o.err == [TruncationWarning] && o.raised.None?
            && exists buf :: |buf| == MaxBytes
                 && (forall k :: 0 <= k < MaxBytes ==> ParseHex(tokens[2 + k]) == Some(buf[k]))
                 && o.out == [Header(tokens[0], tokens[1])]
                             + Disassembly(tokens[0], create(tokens[0], EffectiveFeatures(tokens[1])), buf)
  {
    var toks := tokens[2..];
    assert forall k :: 0 <= k < MaxBytes ==> toks[k] == tokens[2 + k];
    GoodTokensParse(toks, MaxBytes);
    ParseBytesValues(toks, MaxBytes);
    var buf := ParseBytes(toks, MaxBytes).buf;
    assert forall k :: 0 <= k < MaxBytes ==> ParseHex(tokens[2 + k]) == Some(buf[k]);
  }

  /** The first bad byte token aborts the line with its error, after the
      header and before anything is disassembled. */
  lemma BadTokenAborts(tokens: seq<string>, i: nat, create: (string, string) -> Disassembler)
    requires forall t, f :: Sound(create(t, f))
    requires 2 <= i < |tokens| && i < 2 + MaxBytes && !ByteToken(tokens[i])
    requires forall j :: 2 <= j < i ==> ByteToken(tokens[j])
    ensures HandleLine(tokens, create) == Output([Header(tokens[0], tokens[1])], [], Some(TokenError(tokens[i])))
  {
    var toks := tokens[2..];
    assert toks[i - 2] == tokens[i];
    assert forall j :: 0 <= j < i - 2 ==> toks[j] == tokens[j + 2];
    FirstBadTokenAborts(toks, MaxBytes, i - 2);
  }

  /** `NULL` and an empty feature string configure the same disassembler;
      only the echoed header differs. */
  lemma NullFeaturesMeanNone(triple: string, rest: seq<string>, create: (string, string) -> Disassembler)
    requires forall t, f :: Sound(create(t, f))
    ensures var a := HandleLine([triple, "NULL"] + rest, create);
            var b := HandleLine([triple, ""] + rest, create);
            && a.out[0] == Header(triple, "NULL") && b.out[0] == Header(triple, "")
            && a.out[1..] == b.out[1..] && a.err == b.err && a.raised == b.raised
  {
    assert ([triple, "NULL"] + rest)[2..] == rest;
    assert ([triple, ""] + rest)[2..] == rest;
  }

  /** A disassembler that cannot be created yields exactly one error line
      after the header. */
  lemma InvalidDisassemblerReports(tokens: seq<string>, create: (string, string) -> Disassembler)
    requires forall t, f :: Sound(create(t, f))
    requires |tokens| >= 2 && !create(tokens[0], EffectiveFeatures(tokens[1])).valid
    requires ParseBytes(tokens[2..], MaxBytes).Bytes?
    ensures HandleLine(tokens, create).out == [Header(tokens[0], tokens[1]), CreateError(tokens[0])]
  {
  }

  // ---------------------------------------------------------------------------
  // The whole command

  /** Each token list handled on its own. */
  function HandleAll(lines: seq<seq<string>>, create: (string, string) -> Disassembler): (outs: seq<Output>)
    requires forall t, f :: Sound(create(t, f))
    ensures |outs| == |lines|
    ensures forall k :: 0 <= k < |lines| ==> outs[k] == HandleLine(lines[k], create)
  {
    if lines == [] then [] else [HandleLine(lines[0], create)] + HandleAll(lines[1..], create)
  }

  /** The lines' outputs run together in order, up to and including the
      first one that raised; the exception ends the command there. */
  function Combine(outs: seq<Output>): (o: Output)
    ensures (forall k :: 0 <= k < |outs| ==> outs[k].raised.None?) ==> o.raised.None?
  {
    if outs == [] then Output([], [], None)
    else if outs[0].raised.Some? then outs[0]
    else
      var rest := Combine(outs[1..]);
      Output(outs[0].out + rest.out, outs[0].err + rest.err, rest.raised)
  }

  /** `disassemble()`: every token list from the input filter is handled in
      turn, and an error aborts the command after what was printed so far. */
  function Command(input: seq<string>, create: (string, string) -> Disassembler): (o: Output)
    requires forall t, f :: Sound(create(t, f))
    ensures (forall k :: 0 <= k < |input| ==> !Tokenize.Kept(input[k])) ==> o == Output([], [], None)
  {
    Tokenize.NothingKeptIsSilent(input);
    Combine(HandleAll(Tokenize.TokenizeLines(input), create))
  }

  /** Blank and comment lines leave the command's output unchanged. */
  lemma DroppedLineIsSilent(line: string, input: seq<string>, create: (string, string) -> Disassembler)
    requires forall t, f :: Sound(create(t, f))
    requires !Tokenize.Kept(line)
    ensures Command([line] + input, create) == Command(input, create)
  {
    assert ([line] + input)[1..] == input;
  }

  /** Output of a run of lines that completes, followed by more lines, is the
      first run's output and then the rest's. */
  lemma {:induction false} CombineConcatenates(a: seq<Output>, b: seq<Output>)
    requires Combine(a).raised.None?
    ensures Combine(a + b) == Output(Combine(a).out + Combine(b).out, Combine(a).err + Combine(b).err, Combine(b).raised)
    decreases |a|
  {
    if a == [] {
      assert a + b == b;
    } else {
      assert (a + b)[0] == a[0];
      assert (a + b)[1..] == a[1..] + b;
      CombineConcatenates(a[1..], b);
    }
  }

  /** The first line that raises ends the output: nothing after it is
      printed, and its error is the command's. */
  lemma CombineStopsAtFirstError(outs: seq<Output>, i: nat)
    requires i < |outs| && outs[i].raised.Some?
    requires forall k :: 0 <= k < i ==> outs[k].raised.None?
    ensures Combine(outs) == Output(Combine(outs[..i]).out + outs[i].out, Combine(outs[..i]).err + outs[i].err, outs[i].raised)
  {
    var pre := outs[..i];
    var post := outs[i..];
    assert forall k :: 0 <= k < |pre| ==> pre[k].raised.None?;
    assert outs == pre + post;
    assert post[0] == outs[i];
    CombineConcatenates(pre, post);
  }
}

=== FILE: hex.dfy ===
/** Base-16 text: the lowercase renderings the disassembly printer uses
    (Python's `x`, `02x` and `04x` formats) and the parser the line driver
    uses to read byte tokens (Python's `int(token, 16)`). */
module Hex {
  import opened Results

  predicate IsHexDigit(c: char) {
    || '0' <= c <= '9' || 'a' <= c <= 'f' || 'A' <= c <= 'F'
  }

  /** The digits Python's `x` format produces. */
  predicate IsLowerHexDigit(c: char) {
    '0' <= c <= '9' || 'a' <= c <= 'f'
  }

  ghost predicate AllLowerHex(s: string) {
    forall k :: 0 <= k < |s| ==> IsLowerHexDigit(s[k])
  }

  ghost predicate AllHex(s: string) {
    forall k :: 0 <= k < |s| ==> IsHexDigit(s[k])
  }

  function DigitValue(c: char): (v: nat)
    requires IsHexDigit(c)
    ensures v < 16
    ensures v < 10 <==> '0' <= c <= '9'
  {
    if '0' <= c <= '9' then c as int - '0' as int
    else if 'a' <= c <= 'f' then c as int - 'a' as int + 10
    else c as int - 'A' as int + 10
  }

  /** The lowercase digit for `d`. */
  function DigitChar(d: nat): (c: char)
    requires d < 16
    ensures IsLowerHexDigit(c) && IsHexDigit(c) && DigitValue(c) == d
  {
    if d < 10 then ('0' as int + d) as char else ('a' as int + d - 10) as char
  }

  /** The number a string of hex digits denotes, most significant first;
      the empty string denotes 0. */
  function DigitsValue(s: string): nat
    requires AllHex(s)
  {
    if s == [] then 0 else DigitsValue(s[..|s| - 1]) * 16 + DigitValue(s[|s| - 1])
  }

  function Pow16(k: nat): (r: nat)
    ensures r >= 1
  {
    if k == 0 then 1 else 16 * Pow16(k - 1)
  }

  /** Format `x`: the shortest lowercase hex rendering of `n`. */
  function ToHex(n: nat): (s: string)
    ensures s != [] && AllLowerHex(s) && AllHex(s)
    ensures DigitsValue(s) == n
    ensures s[0] == '0' ==> n == 0
    decreases n
  {
    if n < 16 then [DigitChar(n)]
    else
      var hi := ToHex(n / 16);
      var s := hi + [DigitChar(n % 16)];
      assert s[..|s| - 1] == hi;
      s
  }

  function Zeros(k: nat): (z: string)
    ensures |z| == k && AllLowerHex(z) && AllHex(z)
    ensures forall i :: 0 <= i < k ==> z[i] == '0'
  {
    if k == 0 then [] else ['0'] + Zeros(k - 1)
  }

  /** Format `0Nx`: `ToHex(n)` zero-padded on the left to at least `width`
      digits; a longer rendering is kept whole, never cut. */
  function PadHex(n: nat, width: nat): (s: string)
    ensures AllLowerHex(s) && AllHex(s)
    ensures |s| == if |ToHex(n)| < width then width else |ToHex(n)|
    ensures DigitsValue(s) == n
  {
    var h := ToHex(n);
    var z := Zeros(if |h| < width then width - |h| else 0);
    LeadingZerosKeepValue(z, h);
    z + h
  }

  /** Zeros in front of lowercase hex digits change neither the digits'
      kind nor their value. */
  lemma LeadingZerosKeepValue(z: string, h: string)
    requires AllLowerHex(z) && AllLowerHex(h) && AllHex(h)
    requires forall i :: 0 <= i < |z| ==> z[i] == '0'
    ensures AllLowerHex(z + h) && AllHex(z + h) && DigitsValue(z + h) == DigitsValue(h)
  {
    DigitsValueOfZeros(z);
    DigitsValueAppend(z, h);
    assert forall k :: 0 <= k < |z + h| ==> (z + h)[k] == if k < |z| then z[k] else h[k - |z|];
  }

  /** Format `02x`, as used for one byte. */
  function Hex2(b: nat): (s: string)
    requires b < 256
    ensures |s| == 2 && AllLowerHex(s) && DigitsValue(s) == b
  {
    ToHexLength(b, 2);
    PadHex(b, 2)
  }

  lemma {:induction false} DigitsValueAppend(a: string, b: string)
    requires AllHex(a) && AllHex(b)
    ensures AllHex(a + b)
    ensures DigitsValue(a + b) == DigitsValue(a) * Pow16(|b|) + DigitsValue(b)
    decreases |b|
  {
    if b == [] {
      assert a + b == a;
    } else {
      var b' := b[..|b| - 1];
      assert (a + b)[..|a + b| - 1] == a + b';
      assert (a + b)[|a + b| - 1] == b[|b| - 1];
      DigitsValueAppend(a, b');
      assert Pow16(|b|) == Pow16(|b'|) * 16;
      ShiftDigit(DigitsValue(a), Pow16(|b'|), DigitsValue(b'), DigitValue(b[|b| - 1]));
    }
  }

  lemma ShiftDigit(x: int, p: int, y: int, d: int)
    ensures (x * p + y) * 16 + d == x * (p * 16) + (y * 16 + d)
  {
  }

  lemma {:induction false} DigitsValueOfZeros(z: string)
    requires forall i :: 0 <= i < |z| ==> z[i] == '0'
    ensures AllHex(z) && DigitsValue(z) == 0
    decreases |z|
  {
    if z != [] {
      DigitsValueOfZeros(z[..|z| - 1]);
    }
  }

  /** A number below 16^k needs at most k digits. */
  lemma {:induction false} ToHexLength(n: nat, k: nat)
    requires k >= 1 && n < Pow16(k)
    ensures |ToHex(n)| <= k
    decreases k
  {
    if n >= 16 {
      assert k > 1;
      ToHexLength(n / 16, k - 1);
    }
  }

  // ---------------------------------------------------------------------------
  // Parsing

  /** The characters of `s` that are not `_`. */
  function DropUnderscores(s: string): (r: string)
    ensures |r| <= |s|
  {
    if s == [] then [] else (if s[0] == '_' then [] else [s[0]]) + DropUnderscores(s[1..])
  }

  /** Hex digits with single underscores between them. */
  predicate Digits(d: string)
    decreases |d|
  {
    && d != [] && IsHexDigit(d[0])
    && (|d| == 1 || Digits(if d[1] == '_' then d[2..] else d[1..]))
  }

  /** The digit part Python accepts after an optional sign and `0x` prefix;
      one underscore may also come straight after the prefix. */
  predicate DigitPart(d: string, prefixed: bool) {
    Digits(d) || (prefixed && d != [] && d[0] == '_' && Digits(d[1..]))
  }

  lemma {:induction false} DigitsAreHex(d: string)
    requires Digits(d)
    ensures AllHex(DropUnderscores(d))
    decreases |d|
  {
    if |d| > 1 {
      if d[1] == '_' {
        DigitsAreHex(d[2..]);
        assert d[1..][1..] == d[2..];
      } else {
        DigitsAreHex(d[1..]);
      }
    }
  }

  lemma DigitPartIsHex(d: string, prefixed: bool)
    requires DigitPart(d, prefixed)
    ensures AllHex(DropUnderscores(d))
  {
    if Digits(d) {
      DigitsAreHex(d);
    } else {
      DigitsAreHex(d[1..]);
    }
  }

  /** A run of digits without underscores is a digit part, and dropping
      underscores leaves it unchanged. */
  lemma {:induction false} PlainDigits(s: string)
    requires s != [] && AllHex(s)
    ensures Digits(s) && DropUnderscores(s) == s
    decreases |s|
  {
    if |s| > 1 {
      assert s[1] != '_';
      PlainDigits(s[1..]);
    }
  }

  function SplitSign(tok: string): (r: (bool, string))
    ensures |r.1| <= |tok|
  {
    if tok != [] && (tok[0] == '+' || tok[0] == '-') then (tok[0] == '-', tok[1..]) else (false, tok)
  }

  function SplitPrefix(t: string): (r: (bool, string))
    ensures |r.1| <= |t|
  {
    if |t| >= 2 && t[0] == '0' && (t[1] == 'x' || t[1] == 'X') then (true, t[2..]) else (false, t)
  }

  /** `int(tok, 16)` for a whitespace-free token: an optional sign, an
      optional `0x`/`0X` prefix, then the digit part; anything else is a
      `ValueError`, here `None`. */
  function ParseHex(tok: string): (r: Option<int>)
    ensures tok == [] ==> r.None?
    ensures r.Some? && r.value < 0 ==> tok[0] == '-'
  {
    var (neg, t) := SplitSign(tok);
    var (prefixed, d) := SplitPrefix(t);
    if !DigitPart(d, prefixed) then None
    else
      DigitPartIsHex(d, prefixed);
      var v: int := DigitsValue(DropUnderscores(d));
      Some(if neg then -v else v)
  }

  /** A token made only of lowercase hex digits parses to its digit value. */
  lemma PlainDigitsParse(s: string)
    requires s != [] && AllLowerHex(s) && AllHex(s)
    ensures ParseHex(s) == Some(DigitsValue(s))
  {
    assert SplitSign(s) == (false, s);
    if |s| >= 2 {
      assert IsLowerHexDigit(s[1]);
    }
    assert SplitPrefix(s) == (false, s);
    PlainDigits(s);
  }

  /** Format `x` reads back. */
  lemma ToHexRoundTrip(n: nat)
    ensures ParseHex(ToHex(n)) == Some(n)
  {
    PlainDigitsParse(ToHex(n));
  }

  /** Format `0Nx` reads back, whatever the width. */
  lemma PadHexRoundTrip(n: nat, width: nat)
    ensures ParseHex(PadHex(n, width)) == Some(n)
  {
    PlainDigitsParse(PadHex(n, width));
  }

  /** A `0x`-prefixed rendering reads back too. */
  lemma PrefixedRoundTrip(n: nat)
    ensures ParseHex("0x" + ToHex(n)) == Some(n)
  {
    var h := ToHex(n);
    var tok := "0x" + h;
    assert SplitSign(tok) == (false, tok);
    assert tok[2..] == h;
    assert SplitPrefix(tok) == (true, h);
    PlainDigits(h);
  }

  /** A minus sign negates: `-` followed by a rendering of `n` parses to `-n`,
      so every token starting with `-` and naming a non-zero value is below 0. */
  lemma NegatedRoundTrip(n: nat)
    ensures var r := ParseHex("-" + ToHex(n)); r.Some? && r.value + n == 0
  {
    var h := ToHex(n);
    var tok := "-" + h;
    assert tok[1..] == h;
    assert SplitSign(tok) == (true, h);
    if |h| >= 2 {
      assert IsLowerHexDigit(h[1]);
    }
    assert SplitPrefix(h) == (false, h);
    PlainDigits(h);
  }

  /** A token with a character that is neither a digit, a sign, `x`/`X` nor
      `_` is rejected. */
  lemma StrangeCharRejected(tok: string, i: nat)
    requires i < |tok| && !IsHexDigit(tok[i]) && tok[i] !in "+-xX_"
    ensures ParseHex(tok) == None
  {
    var (neg, t) := SplitSign(tok);
    var (prefixed, d) := SplitPrefix(t);
    var off := |tok| - |d|;
    assert d == tok[off..];
    if DigitPart(d, prefixed) {
      if i >= off {
        if Digits(d) {
          DigitsChars(d, i - off);
        } else {
          DigitsChars(d[1..], i - off - 1);
        }
      }
    }
  }

  lemma {:induction false} DigitsChars(d: string, i: nat)
    requires Digits(d) && i < |d|
    ensures IsHexDigit(d[i]) || d[i] == '_'
    decreases |d|
  {
    if i > 0 {
      if d[1] == '_' {
        if i > 1 {
          DigitsChars(d[2..], i - 2);
        }
      } else {
        DigitsChars(d[1..], i - 1);
      }
    }
  }
}

=== FILE: lazy_load.dfy ===
/** The ownership rule for memory buffers handed to a bitcode loader: a lazy
    load absorbs the buffer into the module, which frees it on disposal, so
    the caller must not dispose it; an eager load leaves it with the caller. */
module LazyLoad {
  import opened Results
  import opened Native

  /** Loads a module named `name` from buffer `buf` into context `ctx`. */
  function Load(p: Pool, ctx: Ptr, buf: Ptr, name: string, lazy: bool): (r: Outcome<(Pool, nat)>)
    requires Valid(p)
    ensures !r.Raised?
    ensures r.Ok? <==> ctx.Addr? && ctx.id in p.contexts && buf.Addr? && buf.id in p.buffers
    ensures r.Ok? ==> && Valid(r.value.0) && r.value.1 !in Live(p)
                      && r.value.0.modules == p.modules[r.value.1 := ModInfo(ctx.id, name, if lazy then Some(buf.id) else None)]
                      && r.value.0.buffers == p.buffers && r.value.0.contexts == p.contexts
                      && r.value.0.trace == p.trace + [Created(r.value.1, ModuleKind)]
  {
    match buf
    case Null => Undefined(NullHandle)
    case Addr(b) =>
      if b !in p.buffers then Undefined(UseAfterFree(b))
      else CreateModule(p, name, ctx, if lazy then Some(b) else None)
  }

  /** The caller's part after a load, as the C driver does it: dispose the
      buffer only when the load was eager. */
  function CallerCleanup(p: Pool, buf: Ptr, lazy: bool): (r: Outcome<Pool>)
    requires Valid(p)
    ensures lazy ==> r == Ok(p)
    ensures !lazy ==> (r.Ok? <==> buf.Addr? && buf.id in p.buffers)
    ensures !lazy && r.Ok? ==> && r.value.buffers == p.buffers - {buf.id}
                               && r.value.modules == p.modules && r.value.contexts == p.contexts
                               && r.value.trace == p.trace + [Disposed(buf.id, BufferKind)]
    ensures r.Ok? ==> Valid(r.value)
  {
    if lazy then Ok(p) else DisposeBuffer(p, buf)
  }

  /** Load, caller cleanup, then module disposal: nothing faults, and the
      buffer is disposed exactly once, by the caller after an eager load and
      by the module after a lazy one. */
  lemma ConditionalCleanupDisposesBufferOnce(p: Pool, ctx: nat, buf: nat, name: string, lazy: bool)
    requires Valid(p) && ctx in p.contexts && buf in p.buffers
    ensures var l := Load(p, Addr(ctx), Addr(buf), name, lazy);
            && l.Ok?
            && var (q, m) := l.value;
            && var c := CallerCleanup(q, Addr(buf), lazy);
            && c.Ok?
            && var d := DisposeModule(c.value, Addr(m));
            && d.Ok?
            && buf !in d.value.buffers && m !in d.value.modules
            && d.value.trace == p.trace + [Created(m, ModuleKind)] +
                 (if lazy then [Disposed(m, ModuleKind), Disposed(buf, BufferKind)]
                  else [Disposed(buf, BufferKind), Disposed(m, ModuleKind)])
  {
    var (q, m) := Load(p, Addr(ctx), Addr(buf), name, lazy).value;
    var c := CallerCleanup(q, Addr(buf), lazy).value;
    assert c.modules[m].absorbed == (if lazy then Some(buf) else None);
  }

  /** Disposing the buffer after a lazy load, as a wrapper that always frees
      its buffer would, makes the later module disposal free it again. */
  lemma UnconditionalCleanupDoubleFrees(p: Pool, ctx: nat, buf: nat, name: string)
    requires Valid(p) && ctx in p.contexts && buf in p.buffers
    ensures var (q, m) := Load(p, Addr(ctx), Addr(buf), name, true).value;
            var c := DisposeBuffer(q, Addr(buf));
            && c.Ok?
            && DisposeModule(c.value, Addr(m)) == Undefined(DoubleFree(buf))
  {
    var (q, m) := Load(p, Addr(ctx), Addr(buf), name, true).value;
    var c := DisposeBuffer(q, Addr(buf)).value;
    assert c.modules[m].absorbed == Some(buf);
  }
}

=== FILE: lifetime.dfy ===
/** The owning wrappers `LLVMContext` and `LLVMModule` and the two scoped
    guards `LLVMContextManager` and `LLVMModuleManager`, as values over a
    native handle pool.  Every operation returns the pool it leaves behind;
    a C++ object's destructor is the function named `Destroy…`. */
module Lifetime {
  import opened Results
  import opened Native

  /** `LLVMContext`: the native reference and whether it is the process-global one. */
  datatype Context = Context(ref: Ptr, global: bool)

  /** `LLVMModule`: the native module reference. */
  datatype Module = Module(ref: Ptr)

  /** The wrapper owns a live context that its destructor may dispose. */
  ghost predicate OwnsLive(p: Pool, c: Context) {
    c.ref.Addr? && !c.global && c.ref.id in p.contexts && c.ref.id != p.globalCtx
  }

  /** Destruction of `c` leaves the pool as it was. */
  predicate Inert(c: Context) {
    c.ref.Null? || c.global
  }

  // ---------------------------------------------------------------------------
  // LLVMContext

  /** `LLVMContext(global)`: the global flavour fetches the process-global
      context and creates nothing; the other creates exactly one fresh context. */
  function NewContext(p: Pool, global: bool): (r: (Pool, Context))
    requires Valid(p)
    ensures Valid(r.0) && r.1.global == global
    ensures global ==> r.0 == p && r.1.ref == Addr(p.globalCtx)
    ensures !global ==> && OwnsLive(r.0, r.1) && r.1.ref.id !in Live(p)
                        && r.0.contexts == p.contexts + {r.1.ref.id}
                        && r.0.modules == p.modules && r.0.buffers == p.buffers
                        && r.0.globalCtx == p.globalCtx
                        && r.0.trace == p.trace + [Created(r.1.ref.id, ContextKind)]
  {
    if global then (p, Context(Addr(p.globalCtx), true))
    else
      var (q, id) := CreateContext(p);
      (q, Context(Addr(id), false))
  }

  /** `~LLVMContext`: disposes the native reference exactly when it is non-null
      and the wrapper is not global; a non-null, non-global reference that is
      no longer live is a double free. */
  function DestroyContext(p: Pool, c: Context): (r: Outcome<Pool>)
    requires Valid(p)
    ensures !r.Raised?
    ensures Inert(c) ==> r == Ok(p)
    ensures !Inert(c) ==> (r.Ok? <==> OwnsLive(p, c))
    ensures !Inert(c) && r.Ok? ==> && Valid(r.value)
                                   && r.value.contexts == p.contexts - {c.ref.id}
                                   && r.value.modules == p.modules && r.value.buffers == p.buffers
                                   && r.value.globalCtx == p.globalCtx
                                   && r.value.trace == p.trace + [Disposed(c.ref.id, ContextKind)]
  {
    if c.ref != Null && !c.global then DisposeContext(p, c.ref) else Ok(p)
  }

  /** `LLVMContext(LLVMContext&&)` as written: the reference moves and the
      source is nulled, but the new wrapper's global flag keeps its default
      `false` instead of copying the source's.  Result: (new wrapper, source after). */
  function MoveConstruct(src: Context): (r: (Context, Context))
    ensures r.0.ref == src.ref && !r.0.global
    ensures Inert(r.1) && r.1.global == src.global
  {
    (Context(src.ref, false), src.(ref := Null))
  }

  /** The move constructor with the global flag copied across: the new
      wrapper is the source as it was, and the source is left inert. */
  function MoveConstructFixed(src: Context): (r: (Context, Context))
    ensures r.0 == src && Inert(r.1) && r.1.global == src.global
  {
    (Context(src.ref, src.global), src.(ref := Null))
  }

  /** Destroys two wrappers, the first one first. */
  function DestroyBoth(p: Pool, a: Context, b: Context): (r: Outcome<Pool>)
    requires Valid(p)
    ensures r.Ok? ==> Valid(r.value)
  {
    match DestroyContext(p, a)
    case Ok(q) => DestroyContext(q, b)
    case Raised(m) => Raised(m)
    case Undefined(f) => Undefined(f)
  }

  /** Moving out of a wrapper that is not global transfers the reference: the
      moved-from wrapper disposes nothing, and destroying both disposes exactly
      what destroying the source would have. */
  lemma MoveConstructTransfers(p: Pool, src: Context)
    requires Valid(p) && !src.global
    ensures DestroyContext(p, MoveConstruct(src).1) == Ok(p)
    ensures DestroyBoth(p, MoveConstruct(src).0, MoveConstruct(src).1) == DestroyContext(p, src)
    ensures DestroyBoth(p, MoveConstruct(src).1, MoveConstruct(src).0) == DestroyContext(p, src)
  {
  }

  /** As written, moving out of the global wrapper yields a wrapper whose
      destructor disposes the process-global context. */
  lemma MoveFromGlobalDisposesGlobal(p: Pool)
    requires Valid(p)
    ensures var g := NewContext(p, true).1;
            && DestroyContext(p, g) == Ok(p)
            && DestroyContext(p, MoveConstruct(g).0) == Undefined(GlobalDispose)
  {
  }

  /** With the flag copied, destroying the moved-to and the moved-from
      wrappers, in either order, disposes exactly what the source alone would. */
  lemma MoveConstructFixedTransfers(p: Pool, src: Context)
    requires Valid(p)
    ensures DestroyContext(p, MoveConstructFixed(src).1) == Ok(p)
    ensures DestroyBoth(p, MoveConstructFixed(src).0, MoveConstructFixed(src).1) == DestroyContext(p, src)
    ensures DestroyBoth(p, MoveConstructFixed(src).1, MoveConstructFixed(src).0) == DestroyContext(p, src)
  {
  }

  /** `LLVMContext::operator=(LLVMContext&&)` as written.  `aliased` says the
      two operands are the same object.  A distinct source: the target's old
      reference is handed to `LLVMContextDispose` with no null or global
      check, the target takes the source's reference but keeps its own global
      flag, and the source is left null and not global.
      Result: (pool, target after, source after). */
  function MoveAssign(p: Pool, self: Context, other: Context, aliased: bool): (r: Outcome<(Pool, Context, Context)>)
    requires Valid(p)
    requires aliased ==> self == other
    ensures aliased ==> r == Ok((p, self, other))
    ensures !aliased ==> (r.Ok? <==> self.ref.Addr? && self.ref.id in p.contexts && self.ref.id != p.globalCtx)
    ensures !aliased && self.ref.Null? ==> r == Undefined(NullHandle)
    ensures !aliased && self.ref == Addr(p.globalCtx) ==> r == Undefined(GlobalDispose)
    ensures !aliased && r.Ok? ==> && r.value.0.trace == p.trace + [Disposed(self.ref.id, ContextKind)]
                                  && r.value.1 == Context(other.ref, self.global)
                                  && r.value.2 == Context(Null, false)
    ensures r.Ok? ==> Valid(r.value.0)
  {
    if aliased then Ok((p, self, other))
    else
      match DisposeContext(p, self.ref)
      case Ok(q) => Ok((q, Context(other.ref, self.global), Context(Null, false)))
      case Raised(m) => Raised(m)
      case Undefined(f) => Undefined(f)
  }

  /** The move assignment with the disposal guarded as the destructor guards
      it and the global flag taken from the source. */
  function MoveAssignFixed(p: Pool, self: Context, other: Context, aliased: bool): (r: Outcome<(Pool, Context, Context)>)
    requires Valid(p)
    requires aliased ==> self == other
    ensures aliased ==> r == Ok((p, self, other))
    ensures !aliased ==> (r.Ok? <==> DestroyContext(p, self).Ok?)
    ensures !aliased && r.Ok? ==> r.value == (DestroyContext(p, self).value, other, Context(Null, false))
    ensures r.Ok? ==> Valid(r.value.0)
  {
    if aliased then Ok((p, self, other))
    else
      match DestroyContext(p, self)
      case Ok(q) => Ok((q, other, Context(Null, false)))
      case Raised(m) => Raised(m)
      case Undefined(f) => Undefined(f)
  }

  /** Under the rules the as-written assignment needs (the target owns a live
      context and the source is not the global wrapper) it disposes the
      target's context once, and destroying both operands afterwards disposes
      the source's context once: nothing is disposed twice and nothing leaks. */
  lemma MoveAssignSafe(p: Pool, self: Context, other: Context)
    requires Valid(p)
    requires OwnsLive(p, self)
    requires !other.global && other.ref != Addr(p.globalCtx) && other.ref != self.ref
    ensures var r := MoveAssign(p, self, other, false);
            && r.Ok?
            && r.value.1.ref == other.ref && r.value.2.ref == Null
            && DestroyBoth(r.value.0, r.value.1, r.value.2) == DestroyBoth(p, self, other)
  {
  }

  /** As written, assigning into a moved-from (null) wrapper hands a null
      reference to the native disposer. */
  lemma MoveAssignIntoEmptyDisposesNull(p: Pool, other: Context)
    requires Valid(p)
    ensures MoveAssign(p, Context(Null, false), other, false) == Undefined(NullHandle)
  {
  }

  /** As written, assigning the global wrapper into an owning one: the target
      keeps its `false` flag while holding the global reference, so its
      destructor later disposes the process-global context. */
  lemma MoveAssignFromGlobalDisposesGlobal(p: Pool)
    requires Valid(p)
    ensures var (q, owner) := NewContext(p, false);
            var g := NewContext(q, true).1;
            var r := MoveAssign(q, owner, g, false);
            && r.Ok?
            && DestroyContext(r.value.0, r.value.1) == Undefined(GlobalDispose)
  {
  }

  /** The guarded assignment behaves as "destroy the target, then take the
      source over": destroying both operands afterwards adds up to destroying
      the two originals, for every pair of distinct wrappers. */
  lemma MoveAssignFixedIsDestroyThenMove(p: Pool, self: Context, other: Context)
    requires Valid(p)
    ensures var r := MoveAssignFixed(p, self, other, false);
            r.Ok? ==> && r.value.1 == other && r.value.2 == Context(Null, false)
                      && DestroyBoth(r.value.0, r.value.1, r.value.2) == DestroyBoth(p, self, other)
  {
  }

  // ---------------------------------------------------------------------------
  // LLVMModule

  /** `LLVMModule(name, context)`: a module created in the context's reference,
      or in a null context when no wrapper is given. */
  function NewModule(p: Pool, name: string, context: Option<Context>): (r: Outcome<(Pool, Module)>)
    requires Valid(p)
    ensures !r.Raised?
    ensures context.None? ==> r == Undefined(NullHandle)
    ensures r.Ok? <==> context.Some? && context.value.ref.Addr? && context.value.ref.id in p.contexts
    ensures r.Ok? ==> && Valid(r.value.0)
                      && r.value.1.ref.Addr? && r.value.1.ref.id !in Live(p)
                      && r.value.0.modules == p.modules[r.value.1.ref.id := ModInfo(context.value.ref.id, name, None)]
                      && r.value.0.contexts == p.contexts && r.value.0.buffers == p.buffers
                      && r.value.0.globalCtx == p.globalCtx
                      && r.value.0.trace == p.trace + [Created(r.value.1.ref.id, ModuleKind)]
  {
    var ctx := if context.Some? then context.value.ref else Null;
    match CreateModule(p, name, ctx, None)
    case Ok((q, id)) => Ok((q, Module(Addr(id))))
    case Raised(m) => Raised(m)
    case Undefined(f) => Undefined(f)
  }

  /** `~LLVMModule`: disposes the reference exactly when it is non-null. */
  function DestroyModule(p: Pool, m: Module): (r: Outcome<Pool>)
    requires Valid(p)
    ensures !r.Raised?
    ensures m.ref.Null? ==> r == Ok(p)
    ensures m.ref.Addr? ==> r == DisposeModule(p, m.ref)
    ensures r.Ok? ==> Valid(r.value)
    ensures m.ref.Addr? && m.ref.id in p.modules && p.modules[m.ref.id].ctx in p.contexts
            && p.modules[m.ref.id].absorbed.None? ==>
              r.Ok? && r.value.trace == p.trace + [Disposed(m.ref.id, ModuleKind)]
  {
    if m.ref != Null then DisposeModule(p, m.ref) else Ok(p)
  }

  // ---------------------------------------------------------------------------
  // LLVMContextManager

  /** The owning `unique_ptr<LLVMContext>`: empty, or the entered context. */
  datatype ContextManager = ContextManager(held: Option<Context>)

  /** `LLVMContextManager::enter`: raises when a context is already held,
      otherwise creates exactly one fresh, owned context and holds it. */
  function EnterContext(p: Pool, m: ContextManager): (r: Outcome<(Pool, ContextManager)>)
    requires Valid(p)
    ensures !r.Undefined?
    ensures r.Raised? <==> m.held.Some?
    ensures r.Raised? ==> r.message == "LLVMContextManager already entered"
    ensures r.Ok? ==> && Valid(r.value.0)
                      && r.value.1.held.Some? && OwnsLive(r.value.0, r.value.1.held.value)
                      && r.value.1.held.value.ref.id !in Live(p)
                      && r.value.0.contexts == p.contexts + {r.value.1.held.value.ref.id}
                      && r.value.0.modules == p.modules && r.value.0.buffers == p.buffers
                      && r.value.0.globalCtx == p.globalCtx
                      && r.value.0.trace == p.trace + [Created(r.value.1.held.value.ref.id, ContextKind)]
  {
    if m.held.Some? then Raised("LLVMContextManager already entered")
    else
      var (q, c) := NewContext(p, false);
      Ok((q, ContextManager(Some(c))))
  }

  /** `LLVMContextManager::exit`: raises when nothing is held, otherwise
      destroys the held context and returns to empty. */
  function ExitContext(p: Pool, m: ContextManager): (r: Outcome<(Pool, ContextManager)>)
    requires Valid(p)
    ensures m.held.None? ==> r == Raised("LLVMModuleContext not entered")
    ensures m.held.Some? ==> !r.Raised?
    ensures r.Ok? ==> Valid(r.value.0)
    ensures m.held.Some? && OwnsLive(p, m.held.value) ==>
              && r.Ok? && r.value.1.held.None? && Valid(r.value.0)
              && r.value.0.contexts == p.contexts - {m.held.value.ref.id}
              && r.value.0.modules == p.modules && r.value.0.buffers == p.buffers
              && r.value.0.globalCtx == p.globalCtx
              && r.value.0.trace == p.trace + [Disposed(m.held.value.ref.id, ContextKind)]
  {
    if m.held.None? then Raised("LLVMModuleContext not entered")
    else
      match DestroyContext(p, m.held.value)
      case Ok(q) => Ok((q, ContextManager(None)))
      case Raised(msg) => Raised(msg)
      case Undefined(f) => Undefined(f)
  }

  /** `~LLVMContextManager`: the owning pointer destroys whatever it still holds. */
  function DropContextManager(p: Pool, m: ContextManager): (r: Outcome<Pool>)
    requires Valid(p)
    ensures !r.Raised?
    ensures m.held.None? ==> r == Ok(p)
    ensures r.Ok? ==> Valid(r.value)
    ensures m.held.Some? ==> r == DestroyContext(p, m.held.value)
    ensures m.held.Some? && OwnsLive(p, m.held.value) ==>
              && r.Ok? && r.value.contexts == p.contexts - {m.held.value.ref.id}
              && r.value.modules == p.modules && r.value.buffers == p.buffers
              && r.value.globalCtx == p.globalCtx
              && r.value.trace == p.trace + [Disposed(m.held.value.ref.id, ContextKind)]
  {
    if m.held.Some? then DestroyContext(p, m.held.value) else Ok(p)
  }

  /** Enter and exit strictly alternate, and the manager can be entered
      again after an exit: each round creates one fresh context and disposes
      that same context, and nothing else. */
  lemma ContextManagerRoundTrip(p: Pool)
    requires Valid(p)
    ensures var m := ContextManager(None);
            var e := EnterContext(p, m);
            && e.Ok?
            && EnterContext(e.value.0, e.value.1).Raised?
            && var x := ExitContext(e.value.0, e.value.1);
            && x.Ok? && x.value.1 == m
            && ExitContext(x.value.0, x.value.1).Raised?
            && var id := e.value.1.held.value.ref.id;
            && x.value.0.trace == p.trace + [Created(id, ContextKind), Disposed(id, ContextKind)]
            && x.value.0.contexts == p.contexts
            && EnterContext(x.value.0, x.value.1).Ok?
  {
    var e := EnterContext(p, ContextManager(None));
    var id := e.value.1.held.value.ref.id;
    assert id !in p.contexts;
    var x := ExitContext(e.value.0, e.value.1);
    assert x.value.0.contexts == p.contexts + {id} - {id};
  }

  /** A manager dropped while entered releases its context exactly once; one
      dropped after `exit` releases nothing more. */
  lemma ContextManagerDropReleasesOnce(p: Pool)
    requires Valid(p)
    ensures var e := EnterContext(p, ContextManager(None));
            var id := e.value.1.held.value.ref.id;
            var d := DropContextManager(e.value.0, e.value.1);
            && d.Ok? && d.value.contexts == p.contexts
            && d.value.trace == p.trace + [Created(id, ContextKind), Disposed(id, ContextKind)]
            && var x := ExitContext(e.value.0, e.value.1);
            && DropContextManager(x.value.0, x.value.1) == Ok(x.value.0)
  {
    var e := EnterContext(p, ContextManager(None));
    var id := e.value.1.held.value.ref.id;
    assert id !in p.contexts;
    assert p.contexts + {id} - {id} == p.contexts;
  }

  // ---------------------------------------------------------------------------
  // LLVMModuleManager

  /** The stored name, the raw context pointer (its target is supplied by the
      caller, who knows what it points at), and the owning `unique_ptr<LLVMModule>`. */
  datatype ModuleManager<P> = ModuleManager(name: string, context: P, held: Option<Module>)

  /** `LLVMModuleManager::enter`, given what the raw context pointer designates
      (`None` for a null pointer): raises when a module is held, otherwise
      creates one module with the stored name in that context. */
  function EnterModule<P>(p: Pool, m: ModuleManager<P>, target: Option<Context>): (r: Outcome<(Pool, ModuleManager<P>)>)
    requires Valid(p)
    ensures r.Raised? <==> m.held.Some?
    ensures r.Raised? ==> r.message == "LLVMModuleContext already entered"
    ensures r.Ok? ==> Valid(r.value.0)
    ensures m.held.None? && target.Some? && target.value.ref.Addr? && target.value.ref.id in p.contexts ==>
              && r.Ok? && Valid(r.value.0)
              && r.value.1.name == m.name && r.value.1.context == m.context
              && r.value.1.held.Some? && r.value.1.held.value.ref.Addr?
              && var id := r.value.1.held.value.ref.id;
              && id !in Live(p)
              && r.value.0.modules == p.modules[id := ModInfo(target.value.ref.id, m.name, None)]
              && r.value.0.contexts == p.contexts && r.value.0.buffers == p.buffers
              && r.value.0.globalCtx == p.globalCtx
              && r.value.0.trace == p.trace + [Created(id, ModuleKind)]
  {
    if m.held.Some? then Raised("LLVMModuleContext already entered")
    else
      match NewModule(p, m.name, target)
      case Ok((q, mod)) => Ok((q, m.(held := Some(mod))))
      case Raised(msg) => Raised(msg)
      case Undefined(f) => Undefined(f)
  }

  /** `LLVMModuleManager::exit`: raises when nothing is held, otherwise
      destroys the held module and returns to empty.  A live module is
      disposed with its absorbed buffer, if any, and nothing else changes. */
  function ExitModule<P>(p: Pool, m: ModuleManager<P>): (r: Outcome<(Pool, ModuleManager<P>)>)
    requires Valid(p)
    ensures m.held.None? ==> r == Raised("LLVMModuleContext not entered")
    ensures m.held.Some? ==> !r.Raised?
    ensures m.held.Some? && r.Ok? ==> r.value.1 == m.(held := None) && Valid(r.value.0)
    ensures m.held.Some? && m.held.value.ref.Addr? ==> (r.Ok? <==> DisposeModule(p, m.held.value.ref).Ok?)
    ensures m.held.Some? && m.held.value.ref.Null? ==> r == Ok((p, m.(held := None)))
    ensures m.held.Some? && m.held.value.ref.Addr? && r.Ok? ==>
              var id := m.held.value.ref.id;
              && id in p.modules && id !in r.value.0.modules
              && r.value.0.modules == p.modules - {id}
              && r.value.0.contexts == p.contexts && r.value.0.globalCtx == p.globalCtx
              && (p.modules[id].absorbed.None? ==>
                    && r.value.0.buffers == p.buffers
                    && r.value.0.trace == p.trace + [Disposed(id, ModuleKind)])
              && (p.modules[id].absorbed.Some? ==>
                    var b := p.modules[id].absorbed.value;
                    && r.value.0.buffers == p.buffers - {b}
                    && r.value.0.trace == p.trace + [Disposed(id, ModuleKind), Disposed(b, BufferKind)])
  {
    if m.held.None? then Raised("LLVMModuleContext not entered")
    else
      match DestroyModule(p, m.held.value)
      case Ok(q) => Ok((q, m.(held := None)))
      case Raised(msg) => Raised(msg)
      case Undefined(f) => Undefined(f)
  }

  /** `~LLVMModuleManager`: the owning pointer destroys whatever it still holds. */
  function DropModuleManager<P>(p: Pool, m: ModuleManager<P>): (r: Outcome<Pool>)
    requires Valid(p)
    ensures !r.Raised?
    ensures m.held.None? ==> r == Ok(p)
    ensures r.Ok? ==> Valid(r.value)
    ensures m.held.Some? ==> r == DestroyModule(p, m.held.value)
  {
    if m.held.Some? then DestroyModule(p, m.held.value) else Ok(p)
  }
}

=== FILE: native.dfy ===
/** An abstract pool of the toolkit's native handles.

    The toolkit itself is foreign code; all this module knows of it is which
    handles are live, which context each module belongs to, and the history of
    creations and disposals.  A disposal of a handle that is not live is a
    fault, so a pool that only ever steps through these functions can never
    record a handle being disposed twice. */
module Native {
  import opened Results

  datatype Kind = ContextKind | ModuleKind | BufferKind

  /** A native handle as the wrappers hold it: null, or the address of a resource. */
  datatype Ptr = Null | Addr(id: nat)

  datatype Event = Created(id: nat, kind: Kind) | Disposed(id: nat, kind: Kind)

  /** A live module: the context it was created in, its name, and the memory
      buffer it absorbed when it was loaded lazily. */
  datatype ModInfo = ModInfo(ctx: nat, name: string, absorbed: Option<nat>)

  datatype Pool = Pool(
    globalCtx: nat,
    contexts: set<nat>,
    modules: map<nat, ModInfo>,
    buffers: set<nat>,
    next: nat,
    trace: seq<Event>)

  function Live(p: Pool): set<nat> {
    p.contexts + p.modules.Keys + p.buffers
  }

  /** No handle appears in two disposal events. */
  ghost predicate NoDoubleDispose(t: seq<Event>) {
    forall i, j :: 0 <= i < j < |t| && t[i].Disposed? && t[j].Disposed? ==> t[i].id != t[j].id
  }

  /** No handle is handed out twice by a creation. */
  ghost predicate NoDoubleCreate(t: seq<Event>) {
    forall i, j :: 0 <= i < j < |t| && t[i].Created? && t[j].Created? ==> t[i].id != t[j].id
  }

  /** The pool's representation invariant. */
  ghost predicate Valid(p: Pool) {
    && p.globalCtx in p.contexts
    && p.contexts !! p.modules.Keys
    && p.contexts !! p.buffers
    && p.modules.Keys !! p.buffers
    && (forall id :: id in p.contexts ==> id < p.next)
    && (forall id :: id in p.modules ==> id < p.next)
    && (forall id :: id in p.buffers ==> id < p.next)
    && NoDoubleDispose(p.trace)
    && NoDoubleCreate(p.trace)
    && (forall k :: 0 <= k < |p.trace| ==> p.trace[k].id < p.next)
    && (forall k :: 0 <= k < |p.trace| && p.trace[k].Disposed? ==> p.trace[k].id !in Live(p))
  }

  /** The pool at process start: only the global context exists. */
  function Init(): (p: Pool)
    ensures Valid(p) && Live(p) == {p.globalCtx} && p.trace == []
  {
    Pool(0, {0}, map[], {}, 1, [])
  }

  /** Appending one disposal of a live handle keeps the history free of double disposals. */
  lemma {:induction false} DisposeLiveKeepsHistory(p: Pool, id: nat, k: Kind)
    requires Valid(p) && id in Live(p)
    ensures NoDoubleDispose(p.trace + [Disposed(id, k)])
    ensures NoDoubleCreate(p.trace + [Disposed(id, k)])
  {
    var t := p.trace + [Disposed(id, k)];
    forall i, j | 0 <= i < j < |t| && t[i].Disposed? && t[j].Disposed?
      ensures t[i].id != t[j].id
    {
      if j == |p.trace| {
        assert t[i] == p.trace[i];
        assert p.trace[i].id !in Live(p);
      }
    }
  }

  /** Appending one creation of the next fresh handle keeps the history free of duplicates. */
  lemma {:induction false} CreateFreshKeepsHistory(p: Pool, k: Kind)
    requires Valid(p)
    ensures NoDoubleDispose(p.trace + [Created(p.next, k)])
    ensures NoDoubleCreate(p.trace + [Created(p.next, k)])
  {
    var t := p.trace + [Created(p.next, k)];
    forall i, j | 0 <= i < j < |t| && t[i].Created? && t[j].Created?
      ensures t[i].id != t[j].id
    {
      if j == |p.trace| {
        assert t[i] == p.trace[i];
      }
    }
  }

  /** The pool after `LLVMContextCreate`. */
  function CreateContext(p: Pool): (r: (Pool, nat))
    requires Valid(p)
    ensures Valid(r.0) && r.1 !in Live(p)
    ensures r.0.contexts == p.contexts + {r.1}
    ensures r.0.modules == p.modules && r.0.buffers == p.buffers && r.0.globalCtx == p.globalCtx
    ensures r.0.trace == p.trace + [Created(r.1, ContextKind)]
  {
    CreateFreshKeepsHistory(p, ContextKind);
    var id := p.next;
    (p.(contexts := p.contexts + {id}, next := id + 1, trace := p.trace + [Created(id, ContextKind)]), id)
  }

  /** `LLVMContextDispose`: only a live context other than the global one may be disposed. */
  function DisposeContext(p: Pool, h: Ptr): (r: Outcome<Pool>)
    requires Valid(p)
    ensures !r.Raised?
    ensures h.Null? ==> r == Undefined(NullHandle)
    ensures h == Addr(p.globalCtx) ==> r == Undefined(GlobalDispose)
    ensures r.Ok? <==> h.Addr? && h.id in p.contexts && h.id != p.globalCtx
    ensures r.Ok? ==> && Valid(r.value)
                      && r.value.contexts == p.contexts - {h.id}
                      && r.value.modules == p.modules && r.value.buffers == p.buffers
                      && r.value.globalCtx == p.globalCtx && r.value.next == p.next
                      && r.value.trace == p.trace + [Disposed(h.id, ContextKind)]
  {
    match h
    case Null => Undefined(NullHandle)
    case Addr(id) =>
      if id == p.globalCtx then Undefined(GlobalDispose)
      else if id !in p.contexts then Undefined(DoubleFree(id))
      else
        DisposeLiveKeepsHistory(p, id, ContextKind);
        Ok(p.(contexts := p.contexts - {id}, trace := p.trace + [Disposed(id, ContextKind)]))
  }

  /** `LLVMModuleCreateWithNameInContext`, and the eager or lazy bitcode loaders:
      a fresh module in a live context, absorbing `absorbed` when it is given. */
  function CreateModule(p: Pool, name: string, ctx: Ptr, absorbed: Option<nat>): (r: Outcome<(Pool, nat)>)
    requires Valid(p)
    requires absorbed.Some? ==> absorbed.value in p.buffers
    ensures !r.Raised?
    ensures ctx.Null? ==> r == Undefined(NullHandle)
    ensures r.Ok? <==> ctx.Addr? && ctx.id in p.contexts
    ensures r.Ok? ==> && Valid(r.value.0) && r.value.1 !in Live(p)
                      && r.value.0.modules == p.modules[r.value.1 := ModInfo(ctx.id, name, absorbed)]
                      && r.value.0.contexts == p.contexts && r.value.0.buffers == p.buffers
                      && r.value.0.globalCtx == p.globalCtx
                      && r.value.0.trace == p.trace + [Created(r.value.1, ModuleKind)]
  {
    match ctx
    case Null => Undefined(NullHandle)
    case Addr(c) =>
      if c !in p.contexts then Undefined(UseAfterFree(c))
      else
        CreateFreshKeepsHistory(p, ModuleKind);
        var id := p.next;
        Ok((p.(modules := p.modules[id := ModInfo(c, name, absorbed)], next := id + 1,
               trace := p.trace + [Created(id, ModuleKind)]), id))
  }

  /** `LLVMDisposeModule`: the module must be live and so must its context; a
      module that absorbed a buffer frees that buffer too, which must still be live. */
  function DisposeModule(p: Pool, h: Ptr): (r: Outcome<Pool>)
    requires Valid(p)
    ensures !r.Raised?
    ensures h.Null? ==> r == Undefined(NullHandle)
    ensures h.Addr? && h.id !in p.modules ==> r == Undefined(DoubleFree(h.id))
    ensures r.Ok? <==> && h.Addr? && h.id in p.modules && p.modules[h.id].ctx in p.contexts
                       && (p.modules[h.id].absorbed.Some? ==> p.modules[h.id].absorbed.value in p.buffers)
    ensures r.Ok? ==> && Valid(r.value)
                      && r.value.modules == p.modules - {h.id}
                      && r.value.contexts == p.contexts
                      && r.value.globalCtx == p.globalCtx && r.value.next == p.next
                      && (p.modules[h.id].absorbed.None? ==>
                            r.value.buffers == p.buffers &&
                            r.value.trace == p.trace + [Disposed(h.id, ModuleKind)])
                      && (p.modules[h.id].absorbed.Some? ==>
                            var b := p.modules[h.id].absorbed.value;
                            r.value.buffers == p.buffers - {b} &&
                            r.value.trace == p.trace + [Disposed(h.id, ModuleKind), Disposed(b, BufferKind)])
  {
    match h
    case Null => Undefined(NullHandle)
    case Addr(id) =>
      if id !in p.modules then Undefined(DoubleFree(id))
      else
        var info := p.modules[id];
        if info.ctx !in p.contexts then Undefined(UseAfterFree(info.ctx))
        else
          DisposeLiveKeepsHistory(p, id, ModuleKind);
          var q := p.(modules := p.modules - {id}, trace := p.trace + [Disposed(id, ModuleKind)]);
          match info.absorbed
          case None => Ok(q)
          case Some(b) =>
            if b !in p.buffers then Undefined(DoubleFree(b))
            else
              assert Valid(q);
              DisposeLiveKeepsHistory(q, b, BufferKind);
              assert q.trace + [Disposed(b, BufferKind)] == p.trace + [Disposed(id, ModuleKind), Disposed(b, BufferKind)];
              Ok(q.(buffers := q.buffers - {b}, trace := q.trace + [Disposed(b, BufferKind)]))
  }

  /** The pool after a memory buffer is created from bytes or a file. */
  function CreateBuffer(p: Pool): (r: (Pool, nat))
    requires Valid(p)
    ensures Valid(r.0) && r.1 !in Live(p)
    ensures r.0.buffers == p.buffers + {r.1}
    ensures r.0.modules == p.modules && r.0.contexts == p.contexts && r.0.globalCtx == p.globalCtx
    ensures r.0.trace == p.trace + [Created(r.1, BufferKind)]
  {
    CreateFreshKeepsHistory(p, BufferKind);
    var id := p.next;
    (p.(buffers := p.buffers + {id}, next := id + 1, trace := p.trace + [Created(id, BufferKind)]), id)
  }

  /** `LLVMDisposeMemoryBuffer`: only a live buffer may be disposed. */
  function DisposeBuffer(p: Pool, h: Ptr): (r: Outcome<Pool>)
    requires Valid(p)
    ensures !r.Raised?
    ensures r.Ok? <==> h.Addr? && h.id in p.buffers
    ensures r.Ok? ==> && Valid(r.value)
                      && r.value.buffers == p.buffers - {h.id}
                      && r.value.modules == p.modules && r.value.contexts == p.contexts
                      && r.value.globalCtx == p.globalCtx
                      && r.value.trace == p.trace + [Disposed(h.id, BufferKind)]
  {
    match h
    case Null => Undefined(NullHandle)
    case Addr(id) =>
      if id !in p.buffers then Undefined(DoubleFree(id))
      else
        DisposeLiveKeepsHistory(p, id, BufferKind);
        Ok(p.(buffers := p.buffers - {id}, trace := p.trace + [Disposed(id, BufferKind)]))
  }
}

=== FILE: results.dfy ===
/** Failure-carrying result types shared by every module of the model. */
module Results {

  /** A value that may be absent (a null pointer, an unparsable token). */
  datatype Option<+T> = None | Some(value: T)

  /** What the native toolkit can do wrong when it is handed a bad handle.
      Every one of these is undefined behaviour in the real program. */
  datatype Fault =
    | NullHandle            // a null handle passed where the toolkit dereferences it
    | GlobalDispose         // the process-global context handed to a disposer
    | DoubleFree(id: nat)   // a handle disposed when it is no longer live
    | UseAfterFree(id: nat) // a handle used after it was disposed
    | DanglingWrapper       // a raw pointer to a wrapper object that no longer exists

  /** The outcome of one wrapper operation: it returns normally, it raises an
      `LLVMException` (the state is left as it was), or it reaches native
      undefined behaviour. */
  datatype Outcome<+T> = Ok(value: T) | Raised(message: string) | Undefined(fault: Fault)
}

=== FILE: session.dfy ===
/** What a Python program can do with the bindings: fetch the global
    context, create context managers and enter or exit them, create module
    managers on a context and enter or exit them, and let any manager be
    collected.  A `World` is the native pool plus every wrapper object the
    bindings have made.

    The bindings check nothing about lifetimes: an `LLVMModuleManager` keeps a
    raw `LLVMContext*`.  The rules a Python program must follow are spelled out
    by `Allowed`; under them, no run ever reaches native undefined behaviour,
    so no native handle is ever disposed twice. */
module Session {
  import opened Results
  import opened Native
  import opened Lifetime

  /** What a module manager's raw `LLVMContext*` points at. */
  datatype CtxPtr =
    | NullContext                          // the constructor's default argument; no binding passes it, since
                                           // `create_module` always passes its own context, and `Allowed`
                                           // forbids entering a manager whose pointer is null
    | GlobalObject                         // the static wrapper behind `global_context()`
    | ManagedObject(manager: nat, ref: nat) // the context that context manager `manager` created for native `ref`

  /** A collected Python object is `None`. */
  datatype World = World(
    pool: Pool,
    global: Option<Context>,
    contextManagers: seq<Option<ContextManager>>,
    moduleManagers: seq<Option<ModuleManager<CtxPtr>>>)

  /** One call from Python. */
  datatype Op =
    | GlobalContextCall                      // llvm.global_context()
    | CreateContextCall                      // llvm.create_context()
    | ContextEnterCall(manager: nat)         // __enter__ on a context manager
    | ContextExitCall(manager: nat)          // __exit__ on a context manager
    | ContextRelease(manager: nat)           // the context manager is collected
    | CreateModuleCall(context: CtxPtr, name: string) // ctx.create_module(name)
    | ModuleEnterCall(manager: nat)          // __enter__ on a module manager
    | ModuleExitCall(manager: nat)           // __exit__ on a module manager
    | ModuleRelease(manager: nat)            // the module manager is collected

  /** The process at start: no wrapper objects yet. */
  function Start(): (w: World)
    ensures Inv(w)
  {
    World(Native.Init(), None, [], [])
  }

  // ---------------------------------------------------------------------------
  // Views of a world

  predicate ContextManagerExists(w: World, i: nat) {
    i < |w.contextManagers| && w.contextManagers[i].Some?
  }

  predicate ModuleManagerExists(w: World, j: nat) {
    j < |w.moduleManagers| && w.moduleManagers[j].Some?
  }

  /** The native reference of the context a context manager holds, or null. */
  function HeldContext(o: Option<ContextManager>): Ptr {
    if o.Some? && o.value.held.Some? then o.value.held.value.ref else Null
  }

  /** The native reference of the module a module manager holds, or null. */
  function HeldModule(o: Option<ModuleManager<CtxPtr>>): Ptr {
    if o.Some? && o.value.held.Some? then o.value.held.value.ref else Null
  }

  /** The native context a module manager's held module lives in. */
  function ModuleContext(p: Pool, o: Option<ModuleManager<CtxPtr>>): Option<nat> {
    var m := HeldModule(o);
    if m.Addr? && m.id in p.modules then Some(p.modules[m.id].ctx) else None
  }

  /** The context object a raw pointer designates; a pointer to an object
      that no longer exists is dangling. */
  function Resolve(w: World, c: CtxPtr): Outcome<Option<Context>> {
    match c
    case NullContext => Ok(None)
    case GlobalObject => if w.global.Some? then Ok(w.global) else Undefined(DanglingWrapper)
    case ManagedObject(i, ref) =>
      if ContextManagerExists(w, i) && HeldContext(w.contextManagers[i]) == Addr(ref)
      then Ok(w.contextManagers[i].value.held)
      else Undefined(DanglingWrapper)
  }

  // ---------------------------------------------------------------------------
  // The representation invariant

  ghost predicate ContextManagerOk(p: Pool, o: Option<ContextManager>) {
    o.Some? && o.value.held.Some? ==> OwnsLive(p, o.value.held.value)
  }

  ghost predicate ModuleManagerOk(p: Pool, o: Option<ModuleManager<CtxPtr>>) {
    var m := HeldModule(o);
    m.Addr? ==> m.id in p.modules && p.modules[m.id].ctx in p.contexts && p.modules[m.id].absorbed.None?
  }

  /** Every held wrapper owns a distinct live handle, the global wrapper holds
      the global context, and every held module's context is still live. */
  ghost predicate Inv(w: World) {
    var cms := w.contextManagers;
    var mms := w.moduleManagers;
    && Valid(w.pool)
    && (w.global.Some? ==> w.global.value == Context(Addr(w.pool.globalCtx), true))
    && (forall i :: 0 <= i < |cms| ==> ContextManagerOk(w.pool, cms[i]))
    && (forall i, j :: 0 <= i < j < |cms| && HeldContext(cms[i]).Addr? ==> HeldContext(cms[i]) != HeldContext(cms[j]))
    && (forall j :: 0 <= j < |mms| ==> ModuleManagerOk(w.pool, mms[j]))
    && (forall i, j :: 0 <= i < j < |mms| && HeldModule(mms[i]).Addr? ==> HeldModule(mms[i]) != HeldModule(mms[j]))
  }

  // ---------------------------------------------------------------------------
  // One call

  function Step(w: World, op: Op): (r: Outcome<World>)
    requires Valid(w.pool)
    ensures r.Ok? ==> Valid(r.value.pool)
  {
    var cms := w.contextManagers;
    var mms := w.moduleManagers;
    match op
    case GlobalContextCall =>
      if w.global.Some? then Ok(w)
      else Ok(w.(global := Some(NewContext(w.pool, true).1)))
    case CreateContextCall =>
      Ok(w.(contextManagers := cms + [Some(ContextManager(None))]))
    case ContextEnterCall(i) =>
      if !ContextManagerExists(w, i) then Undefined(DanglingWrapper)
      else
        (match EnterContext(w.pool, cms[i].value)
        case Ok((q, m)) => Ok(w.(pool := q, contextManagers := cms[i := Some(m)]))
        case Raised(msg) => Raised(msg)
        case Undefined(f) => Undefined(f))
    case ContextExitCall(i) =>
      if !ContextManagerExists(w, i) then Undefined(DanglingWrapper)
      else
        (match ExitContext(w.pool, cms[i].value)
        case Ok((q, m)) => Ok(w.(pool := q, contextManagers := cms[i := Some(m)]))
        case Raised(msg) => Raised(msg)
        case Undefined(f) => Undefined(f))
    case ContextRelease(i) =>
      if !ContextManagerExists(w, i) then Undefined(DanglingWrapper)
      else
        (match DropContextManager(w.pool, cms[i].value)
        case Ok(q) => Ok(w.(pool := q, contextManagers := cms[i := None]))
        case Raised(msg) => Raised(msg)
        case Undefined(f) => Undefined(f))
    case CreateModuleCall(c, name) =>
      Ok(w.(moduleManagers := mms + [Some(ModuleManager(name, c, None))]))
    case ModuleEnterCall(j) =>
      if !ModuleManagerExists(w, j) then Undefined(DanglingWrapper)
      else if mms[j].value.held.Some? then Raised("LLVMModuleContext already entered")
      else
        (match Resolve(w, mms[j].value.context)
         case Ok(target) =>
          (match EnterModule(w.pool, mms[j].value, target)
           case Ok((q, m)) => Ok(w.(pool := q, moduleManagers := mms[j := Some(m)]))
           case Raised(msg) => Raised(msg)
           case Undefined(f) => Undefined(f))
         case Raised(msg) => Raised(msg)
         case Undefined(f) => Undefined(f))
    case ModuleExitCall(j) =>
      if !ModuleManagerExists(w, j) then Undefined(DanglingWrapper)
      else
        (match ExitModule(w.pool, mms[j].value)
        case Ok((q, m)) => Ok(w.(pool := q, moduleManagers := mms[j := Some(m)]))
        case Raised(msg) => Raised(msg)
        case Undefined(f) => Undefined(f))
    case ModuleRelease(j) =>
      if !ModuleManagerExists(w, j) then Undefined(DanglingWrapper)
      else
        (match DropModuleManager(w.pool, mms[j].value)
        case Ok(q) => Ok(w.(pool := q, moduleManagers := mms[j := None]))
        case Raised(msg) => Raised(msg)
        case Undefined(f) => Undefined(f))
  }

  /** The rules a Python program must follow, because the bindings do not
      enforce them: call only objects it still holds; never leave a context
      while a module created in it is still held ("the context outlives the
      module"); and enter a module manager only while the context object it
      was created on still exists. */
  ghost predicate Allowed(w: World, op: Op) {
    match op
    case GlobalContextCall => true
    case CreateContextCall => true
    case CreateModuleCall(_, _) => true
    case ContextEnterCall(i) => ContextManagerExists(w, i)
    case ContextExitCall(i) => ContextManagerExists(w, i) && ContextUnused(w, HeldContext(w.contextManagers[i]))
    case ContextRelease(i) => ContextManagerExists(w, i) && ContextUnused(w, HeldContext(w.contextManagers[i]))
    case ModuleEnterCall(j) =>
      && ModuleManagerExists(w, j)
      && (w.moduleManagers[j].value.held.None? ==> TargetExists(w, w.moduleManagers[j].value.context))
    case ModuleExitCall(j) => ModuleManagerExists(w, j)
    case ModuleRelease(j) => ModuleManagerExists(w, j)
  }

  /** No held module lives in context `c`. */
  ghost predicate ContextUnused(w: World, c: Ptr) {
    c.Addr? ==> forall j :: 0 <= j < |w.moduleManagers| ==> ModuleContext(w.pool, w.moduleManagers[j]) != Some(c.id)
  }

  /** The pointer designates a context object that still exists. */
  ghost predicate TargetExists(w: World, c: CtxPtr) {
    var r := Resolve(w, c);
    r.Ok? && r.value.Some?
  }

  // ---------------------------------------------------------------------------
  // Each call keeps the invariant

  lemma {:induction false} GlobalAndCreatePreserve(w: World, op: Op)
    requires Inv(w)
    requires op.GlobalContextCall? || op.CreateContextCall? || op.CreateModuleCall?
    ensures Step(w, op).Ok? && Inv(Step(w, op).value) && Step(w, op).value.pool == w.pool
  {
    var w' := Step(w, op).value;
    if op.CreateContextCall? {
      assert forall i :: 0 <= i < |w.contextManagers| ==> w'.contextManagers[i] == w.contextManagers[i];
    } else if op.CreateModuleCall? {
      assert forall i :: 0 <= i < |w.moduleManagers| ==> w'.moduleManagers[i] == w.moduleManagers[i];
    }
  }

  /** Filling context manager `i`'s empty slot with a fresh context that only
      it owns keeps the invariant. */
  lemma {:induction false} ContextSlotFilled(w: World, i: nat, q: Pool, e: Option<ContextManager>)
    requires Inv(w) && i < |w.contextManagers| && HeldContext(w.contextManagers[i]) == Null
    requires Valid(q) && e.Some? && e.value.held.Some? && OwnsLive(q, e.value.held.value)
    requires HeldContext(e).id !in Live(w.pool)
    requires q.contexts == w.pool.contexts + {HeldContext(e).id}
    requires q.modules == w.pool.modules && q.globalCtx == w.pool.globalCtx
    ensures Inv(w.(pool := q, contextManagers := w.contextManagers[i := e]))
  {
    var cms := w.contextManagers;
    var cms' := cms[i := e];
    forall k | 0 <= k < |cms'|
      ensures ContextManagerOk(q, cms'[k]) && (k != i ==> HeldContext(cms'[k]) != HeldContext(e))
    {
      if k != i {
        assert ContextManagerOk(w.pool, cms[k]);
      }
    }
    forall k | 0 <= k < |w.moduleManagers|
      ensures ModuleManagerOk(q, w.moduleManagers[k])
    {
      assert ModuleManagerOk(w.pool, w.moduleManagers[k]);
    }
  }

  /** Emptying context manager `i`'s slot, with its context gone from the pool
      and no held module living in it, keeps the invariant. */
  lemma {:induction false} ContextSlotCleared(w: World, i: nat, q: Pool, e: Option<ContextManager>)
    requires Inv(w) && i < |w.contextManagers| && Valid(q) && (e.None? || e.value.held.None?)
    requires ContextUnused(w, HeldContext(w.contextManagers[i]))
    requires var c := HeldContext(w.contextManagers[i]);
             q.contexts == if c.Addr? then w.pool.contexts - {c.id} else w.pool.contexts
    requires q.modules == w.pool.modules && q.globalCtx == w.pool.globalCtx
    ensures Inv(w.(pool := q, contextManagers := w.contextManagers[i := e]))
  {
    var cms := w.contextManagers;
    var cms' := cms[i := e];
    var c := HeldContext(cms[i]);
    forall k | 0 <= k < |cms'|
      ensures ContextManagerOk(q, cms'[k])
    {
      if k != i {
        assert ContextManagerOk(w.pool, cms[k]);
        if HeldContext(cms[k]).Addr? && c.Addr? {
          if k < i { assert HeldContext(cms[k]) != c; }
          else { assert c != HeldContext(cms[k]); }
        }
      }
    }
    forall k | 0 <= k < |w.moduleManagers|
      ensures ModuleManagerOk(q, w.moduleManagers[k])
    {
      assert ModuleManagerOk(w.pool, w.moduleManagers[k]);
    }
  }

  /** Filling module manager `j`'s empty slot with a fresh module, created in
      a live context, keeps the invariant. */
  lemma {:induction false} ModuleSlotFilled(w: World, j: nat, q: Pool, e: Option<ModuleManager<CtxPtr>>, ctx: nat, name: string)
    requires Inv(w) && j < |w.moduleManagers| && HeldModule(w.moduleManagers[j]) == Null
    requires Valid(q) && HeldModule(e).Addr? && HeldModule(e).id !in Live(w.pool)
    requires ctx in w.pool.contexts
    requires q.modules == w.pool.modules[HeldModule(e).id := ModInfo(ctx, name, None)]
    requires q.contexts == w.pool.contexts && q.globalCtx == w.pool.globalCtx
    ensures Inv(w.(pool := q, moduleManagers := w.moduleManagers[j := e]))
  {
    var mms := w.moduleManagers;
    var mms' := mms[j := e];
    forall k | 0 <= k < |mms'|
      ensures ModuleManagerOk(q, mms'[k]) && (k != j ==> HeldModule(mms'[k]) != HeldModule(e))
    {
      if k != j {
        assert ModuleManagerOk(w.pool, mms[k]);
      }
    }
    forall k | 0 <= k < |w.contextManagers|
      ensures ContextManagerOk(q, w.contextManagers[k])
    {
      assert ContextManagerOk(w.pool, w.contextManagers[k]);
    }
  }

  /** Emptying module manager `j`'s slot, with its module gone from the pool,
      keeps the invariant. */
  lemma {:induction false} ModuleSlotCleared(w: World, j: nat, q: Pool, e: Option<ModuleManager<CtxPtr>>)
    requires Inv(w) && j < |w.moduleManagers| && Valid(q) && HeldModule(e) == Null
    requires var h := HeldModule(w.moduleManagers[j]);
             q.modules == if h.Addr? then w.pool.modules - {h.id} else w.pool.modules
    requires q.contexts == w.pool.contexts && q.globalCtx == w.pool.globalCtx
    ensures Inv(w.(pool := q, moduleManagers := w.moduleManagers[j := e]))
  {
    var mms := w.moduleManagers;
    var mms' := mms[j := e];
    var h := HeldModule(mms[j]);
    forall k | 0 <= k < |mms'|
      ensures ModuleManagerOk(q, mms'[k])
    {
      if k != j {
        assert ModuleManagerOk(w.pool, mms[k]);
        if HeldModule(mms[k]).Addr? && h.Addr? {
          if k < j { assert HeldModule(mms[k]) != h; }
          else { assert h != HeldModule(mms[k]); }
        }
      }
    }
    forall k | 0 <= k < |w.contextManagers|
      ensures ContextManagerOk(q, w.contextManagers[k])
    {
      assert ContextManagerOk(w.pool, w.contextManagers[k]);
    }
  }

  lemma {:induction false} ContextEnterPreserves(w: World, i: nat)
    requires Inv(w) && Allowed(w, ContextEnterCall(i))
    ensures !Step(w, ContextEnterCall(i)).Undefined?
    ensures Step(w, ContextEnterCall(i)).Ok? ==>
              Inv(Step(w, ContextEnterCall(i)).value) && w.pool.trace <= Step(w, ContextEnterCall(i)).value.pool.trace
  {
    var cms := w.contextManagers;
    var e := EnterContext(w.pool, cms[i].value);
    if e.Ok? {
      var (q, m) := e.value;
      assert Step(w, ContextEnterCall(i)) == Ok(w.(pool := q, contextManagers := cms[i := Some(m)]));
      ContextSlotFilled(w, i, q, Some(m));
    }
  }

  lemma {:induction false} ContextLeavePreserves(w: World, op: Op)
    requires Inv(w) && Allowed(w, op)
    requires op.ContextExitCall? || op.ContextRelease?
    ensures !Step(w, op).Undefined?
    ensures Step(w, op).Ok? ==> Inv(Step(w, op).value) && w.pool.trace <= Step(w, op).value.pool.trace
  {
    var cms := w.contextManagers;
    var i := op.manager;
    var cm := cms[i].value;
    assert ContextManagerOk(w.pool, cms[i]);
    if op.ContextRelease? || cm.held.Some? {
      var e: Option<ContextManager> := if op.ContextExitCall? then Some(ContextManager(None)) else None;
      var q := if cm.held.Some? then DestroyContext(w.pool, cm.held.value).value else w.pool;
      assert Step(w, op) == Ok(w.(pool := q, contextManagers := cms[i := e]));
      ContextSlotCleared(w, i, q, e);
    }
  }

  lemma {:induction false} ModuleEnterPreserves(w: World, j: nat)
    requires Inv(w) && Allowed(w, ModuleEnterCall(j))
    ensures !Step(w, ModuleEnterCall(j)).Undefined?
    ensures Step(w, ModuleEnterCall(j)).Ok? ==>
              Inv(Step(w, ModuleEnterCall(j)).value) && w.pool.trace <= Step(w, ModuleEnterCall(j)).value.pool.trace
  {
    var mms := w.moduleManagers;
    var mm := mms[j].value;
    if mm.held.None? {
      var target := Resolve(w, mm.context).value.value;
      assert target.ref.Addr? && target.ref.id in w.pool.contexts by {
        match mm.context
        case GlobalObject =>
        case ManagedObject(i, ref) =>
          assert ContextManagerOk(w.pool, w.contextManagers[i]);
      }
      var (q, m) := EnterModule(w.pool, mm, Some(target)).value;
      assert Step(w, ModuleEnterCall(j)) == Ok(w.(pool := q, moduleManagers := mms[j := Some(m)]));
      ModuleSlotFilled(w, j, q, Some(m), target.ref.id, mm.name);
    }
  }

  lemma {:induction false} ModuleLeavePreserves(w: World, op: Op)
    requires Inv(w) && Allowed(w, op)
    requires op.ModuleExitCall? || op.ModuleRelease?
    ensures !Step(w, op).Undefined?
    ensures Step(w, op).Ok? ==> Inv(Step(w, op).value) && w.pool.trace <= Step(w, op).value.pool.trace
  {
    var mms := w.moduleManagers;
    var j := op.manager;
    var mm := mms[j].value;
    assert ModuleManagerOk(w.pool, mms[j]);
    if op.ModuleRelease? || mm.held.Some? {
      var e: Option<ModuleManager<CtxPtr>> := if op.ModuleExitCall? then Some(mm.(held := None)) else None;
      var q := if mm.held.Some? then DestroyModule(w.pool, mm.held.value).value else w.pool;
      assert Step(w, op) == Ok(w.(pool := q, moduleManagers := mms[j := e]));
      ModuleSlotCleared(w, j, q, e);
    }
  }

  /** A call allowed by the rules never reaches undefined behaviour and keeps
      the invariant; the native history only grows. */
  lemma {:induction false} StepIsSafe(w: World, op: Op)
    requires Inv(w) && Allowed(w, op)
    ensures !Step(w, op).Undefined?
    ensures Step(w, op).Ok? ==> Inv(Step(w, op).value) && w.pool.trace <= Step(w, op).value.pool.trace
  {
    match op
    case GlobalContextCall => GlobalAndCreatePreserve(w, op);
    case CreateContextCall => GlobalAndCreatePreserve(w, op);
    case CreateModuleCall(_, _) => GlobalAndCreatePreserve(w, op);
    case ContextEnterCall(i) => ContextEnterPreserves(w, i);
    case ContextExitCall(_) => ContextLeavePreserves(w, op);
    case ContextRelease(_) => ContextLeavePreserves(w, op);
    case ModuleEnterCall(j) => ModuleEnterPreserves(w, j);
    case ModuleExitCall(_) => ModuleLeavePreserves(w, op);
    case ModuleRelease(_) => ModuleLeavePreserves(w, op);
  }

  // ---------------------------------------------------------------------------
  // Runs

  /** A sequence of calls.  An `LLVMException` leaves the world as it was and
      the program carries on (Python may catch it); undefined behaviour ends
      the run. */
  function Run(w: World, ops: seq<Op>): (r: Outcome<World>)
    requires Valid(w.pool)
    ensures r.Ok? ==> Valid(r.value.pool)
    ensures !r.Raised?
    decreases |ops|
  {
    if ops == [] then Ok(w)
    else
      match Step(w, ops[0])
      case Ok(w') => Run(w', ops[1..])
      case Raised(_) => Run(w, ops[1..])
      case Undefined(f) => Undefined(f)
  }

  /** Every call of the sequence is allowed in the world it is made in.  (A
      call that reached undefined behaviour ends the run; `RunIsSafe` shows
      that never happens.) */
  ghost predicate Disciplined(w: World, ops: seq<Op>)
    requires Valid(w.pool)
    decreases |ops|
  {
    ops == [] ||
    (Allowed(w, ops[0]) &&
     match Step(w, ops[0])
     case Ok(w') => Disciplined(w', ops[1..])
     case Raised(_) => Disciplined(w, ops[1..])
     case Undefined(_) => true)
  }

  /** The main theorem: a program that follows the rules never reaches native
      undefined behaviour, and the native history it leaves behind extends
      the one it started from and never disposes any handle twice. */
  lemma {:induction false} RunIsSafe(w: World, ops: seq<Op>)
    requires Inv(w) && Disciplined(w, ops)
    ensures Run(w, ops).Ok?
    ensures Inv(Run(w, ops).value)
    ensures w.pool.trace <= Run(w, ops).value.pool.trace
    ensures NoDoubleDispose(Run(w, ops).value.pool.trace)
    decreases |ops|
  {
    if ops != [] {
      StepIsSafe(w, ops[0]);
      match Step(w, ops[0])
      case Ok(w') => RunIsSafe(w', ops[1..]);
      case Raised(_) => RunIsSafe(w, ops[1..]);
    }
  }

  /** Starting from a fresh process, a program that follows the rules disposes
      no native handle twice and never disposes the global context. */
  lemma NoHandleDisposedTwice(ops: seq<Op>)
    requires Disciplined(Start(), ops)
    ensures Run(Start(), ops).Ok?
    ensures NoDoubleDispose(Run(Start(), ops).value.pool.trace)
    ensures Run(Start(), ops).value.pool.globalCtx in Run(Start(), ops).value.pool.contexts
  {
    RunIsSafe(Start(), ops);
  }

  /** `global_context()` hands back the same static wrapper on every call: the
      first call builds a global-flagged wrapper over the process-global
      context and creates nothing, and later calls change nothing. */
  lemma GlobalContextIsSingleton(w: World)
    requires Inv(w)
    ensures var r := Step(w, GlobalContextCall);
            && r.Ok? && r.value.pool == w.pool
            && r.value.global == Some(Context(Addr(w.pool.globalCtx), true))
            && Step(r.value, GlobalContextCall) == r
  {
  }

  // ---------------------------------------------------------------------------
  // Why the rules are needed

  /** The native reference of the first context created in a fresh
      process: the global context is 0. */
  const FirstContext: nat := 1

  /** One call of a run, unfolded. */
  lemma RunUnfold(w: World, ops: seq<Op>)
    requires Valid(w.pool) && ops != [] && !Step(w, ops[0]).Raised?
    ensures Step(w, ops[0]).Ok? ==> Run(w, ops) == Run(Step(w, ops[0]).value, ops[1..])
    ensures Step(w, ops[0]).Undefined? ==> Run(w, ops) == Undefined(Step(w, ops[0]).fault)
  {
  }

  /** One call of a disciplined run, unfolded. */
  lemma DisciplinedUnfold(w: World, ops: seq<Op>)
    requires Valid(w.pool) && ops != [] && Step(w, ops[0]).Ok?
    requires Allowed(w, ops[0]) && Disciplined(Step(w, ops[0]).value, ops[1..])
    ensures Disciplined(w, ops)
  {
  }

  /** The world after the context is left while the module is still held. */
  function EarlyExitWorld(): World {
    var t4 := [Created(1, ContextKind), Created(2, ModuleKind)];
    var mm := ModuleManager("m", ManagedObject(0, 1), Some(Module(Addr(2))));
    World(Pool(0, {0}, map[2 := ModInfo(1, "m", None)], {}, 3, t4 + [Disposed(1, ContextKind)]),
          None, [Some(ContextManager(None))], [Some(mm)])
  }

  lemma EarlyExitValid()
    ensures Valid(EarlyExitWorld().pool)
  {
    NestedWorldsValidEarly(4);
    assert {0, 1} - {1} == {0};
    assert NestedWorld(4).pool.trace + [Disposed(1, ContextKind)] == EarlyExitWorld().pool.trace;
    assert DisposeContext(NestedWorld(4).pool, Addr(1)) == Ok(EarlyExitWorld().pool);
  }

  lemma EarlyExitStep(w: World)
    requires w == NestedWorld(4)
    ensures Valid(w.pool)
    ensures Step(w, ContextExitCall(0)) == Ok(EarlyExitWorld())
  {
    NestedWorldsValid(4);
    var q := EarlyExitWorld().pool;
    assert ExitContext(w.pool, w.contextManagers[0].value) == Ok((q, ContextManager(None))) by {
      assert {0, 1} - {1} == {0};
      assert w.pool.trace + [Disposed(1, ContextKind)] == q.trace;
      assert DisposeContext(w.pool, Addr(1)) == Ok(q);
    }
    ContextExitStep(w, 0, q, ContextManager(None));
    assert w.contextManagers[0 := Some(ContextManager(None))] == EarlyExitWorld().contextManagers;
  }

  lemma EarlyExitThenModuleExit(w: World)
    requires w == EarlyExitWorld()
    ensures Valid(w.pool)
    ensures Step(w, ModuleExitCall(0)) == Undefined(UseAfterFree(FirstContext))
  {
    EarlyExitValid();
    assert DisposeModule(w.pool, Addr(2)) == Undefined(UseAfterFree(1));
  }

  /** The world after the context is left before the module is entered. */
  function DanglingWorld(): World {
    var t2 := [Created(1, ContextKind)];
    World(Pool(0, {0}, map[], {}, 2, t2 + [Disposed(1, ContextKind)]),
          None, [Some(ContextManager(None))], [Some(ModuleManager("m", ManagedObject(0, 1), None))])
  }

  lemma DanglingValid()
    ensures Valid(DanglingWorld().pool)
  {
    NestedWorldsValidEarly(3);
    assert {0, 1} - {1} == {0};
    assert DisposeContext(NestedWorld(3).pool, Addr(1)) == Ok(DanglingWorld().pool);
  }

  lemma DanglingStep(w: World)
    requires w == NestedWorld(3)
    ensures Valid(w.pool)
    ensures Step(w, ContextExitCall(0)) == Ok(DanglingWorld())
  {
    NestedWorldsValid(3);
    var q := DanglingWorld().pool;
    assert ExitContext(w.pool, w.contextManagers[0].value) == Ok((q, ContextManager(None))) by {
      assert {0, 1} - {1} == {0};
      assert w.pool.trace + [Disposed(1, ContextKind)] == q.trace;
      assert DisposeContext(w.pool, Addr(1)) == Ok(q);
    }
    ContextExitStep(w, 0, q, ContextManager(None));
    assert w.contextManagers[0 := Some(ContextManager(None))] == DanglingWorld().contextManagers;
  }

  lemma DanglingThenModuleEnter(w: World)
    requires w == DanglingWorld()
    ensures Valid(w.pool)
    ensures Step(w, ModuleEnterCall(0)) == Undefined(DanglingWrapper)
  {
    DanglingValid();
    assert Resolve(w, ManagedObject(0, 1)) == Undefined(DanglingWrapper);
  }

  /** Calls `k` to `n` of the nested `with` statements, followed by
      anything, run as the rest does from the world they leave. */
  lemma {:induction false} NestedPrefix(k: nat, n: nat, w: World, rest: seq<Op>)
    requires k <= n <= 4 && w == NestedWorld(k)
    ensures Valid(w.pool) && Valid(NestedWorld(n).pool)
    ensures Run(w, NestedWith()[k..n] + rest) == Run(NestedWorld(n), rest)
    decreases n - k
  {
    NestedWorldsValid(k);
    if k == n {
      assert NestedWith()[n..n] + rest == rest;
    } else {
      NestedPrefixStep(k, n, rest);
      NestedPrefix(k + 1, n, NestedWorld(k + 1), rest);
    }
  }

  lemma NestedPrefixStep(k: nat, n: nat, rest: seq<Op>)
    requires k < n <= 4
    ensures Valid(NestedWorld(k).pool) && Valid(NestedWorld(k + 1).pool)
    ensures Run(NestedWorld(k), NestedWith()[k..n] + rest) == Run(NestedWorld(k + 1), NestedWith()[k + 1..n] + rest)
  {
    NestedStep(k, NestedWorld(k), NestedWith()[k], NestedWorld(k + 1));
    NestedWorldsValid(k + 1);
    SliceCons(NestedWith(), k, n, rest);
    RunCons(NestedWorld(k), NestedWith()[k], NestedWith()[k + 1..n] + rest);
  }

  /** A run that starts with a successful call goes on from that call's world. */
  lemma RunCons(w: World, op: Op, tail: seq<Op>)
    requires Valid(w.pool) && Step(w, op).Ok?
    ensures Run(w, [op] + tail) == Run(Step(w, op).value, tail)
  {
    assert ([op] + tail)[0] == op;
    assert ([op] + tail)[1..] == tail;
  }

  lemma SliceCons<T>(s: seq<T>, k: nat, n: nat, rest: seq<T>)
    requires k < n <= |s|
    ensures s[k..n] + rest == [s[k]] + (s[k + 1..n] + rest)
  {
  }

  /** Leaving a context while a module created in it is still held: the
      module's later disposal uses the freed context. */
  lemma ExitingContextFirstIsUseAfterFree()
    ensures Run(Start(), [CreateContextCall, ContextEnterCall(0),
                          CreateModuleCall(ManagedObject(0, FirstContext), "m"), ModuleEnterCall(0),
                          ContextExitCall(0), ModuleExitCall(0)])
            == Undefined(UseAfterFree(FirstContext))
  {
    var rest := [ContextExitCall(0), ModuleExitCall(0)];
    assert [CreateContextCall, ContextEnterCall(0),
            CreateModuleCall(ManagedObject(0, FirstContext), "m"), ModuleEnterCall(0),
            ContextExitCall(0), ModuleExitCall(0)] == NestedWith()[0..4] + rest;
    NestedPrefix(0, 4, NestedWorld(0), rest);
    EarlyExitStep(NestedWorld(4));
    EarlyExitThenModuleExit(EarlyExitWorld());
    RunUnfold(EarlyExitWorld(), rest[1..]);
    RunUnfold(NestedWorld(4), rest);
  }

  /** The module manager's raw pointer outliving the context it points at:
      entering the module manager dereferences a destroyed object. */
  lemma EnteringAfterContextExitDangles()
    ensures Run(Start(), [CreateContextCall, ContextEnterCall(0),
                          CreateModuleCall(ManagedObject(0, FirstContext), "m"),
                          ContextExitCall(0), ModuleEnterCall(0)])
            == Undefined(DanglingWrapper)
  {
    var rest := [ContextExitCall(0), ModuleEnterCall(0)];
    assert [CreateContextCall, ContextEnterCall(0),
            CreateModuleCall(ManagedObject(0, FirstContext), "m"),
            ContextExitCall(0), ModuleEnterCall(0)] == NestedWith()[0..3] + rest;
    NestedPrefix(0, 3, NestedWorld(0), rest);
    DanglingStep(NestedWorld(3));
    DanglingThenModuleEnter(DanglingWorld());
    RunUnfold(DanglingWorld(), rest[1..]);
    RunUnfold(NestedWorld(3), rest);
  }

  /** The calls a pair of nested `with` statements makes. */
  function NestedWith(): seq<Op> {
    [CreateContextCall, ContextEnterCall(0),
     CreateModuleCall(ManagedObject(0, FirstContext), "m"), ModuleEnterCall(0),
     ModuleExitCall(0), ContextExitCall(0), ModuleRelease(0), ContextRelease(0)]
  }

  /** The world after the first `k` calls of `NestedWith`. */
  function NestedWorld(k: nat): World
    requires k <= 8
  {
    var t2 := [Created(1, ContextKind)];
    var t4 := t2 + [Created(2, ModuleKind)];
    var t5 := t4 + [Disposed(2, ModuleKind)];
    var t6 := t5 + [Disposed(1, ContextKind)];
    var entered := [Some(ContextManager(Some(Context(Addr(1), false))))];
    var left := [Some(ContextManager(None))];
    var mm := ModuleManager("m", ManagedObject(0, 1), None);
    match k
    case 0 => Start()
    case 1 => World(Native.Init(), None, left, [])
    case 2 => World(Pool(0, {0, 1}, map[], {}, 2, t2), None, entered, [])
    case 3 => World(Pool(0, {0, 1}, map[], {}, 2, t2), None, entered, [Some(mm)])
    case 4 => World(Pool(0, {0, 1}, map[2 := ModInfo(1, "m", None)], {}, 3, t4), None, entered,
                    [Some(mm.(held := Some(Module(Addr(2)))))])
    case 5 => World(Pool(0, {0, 1}, map[], {}, 3, t5), None, entered, [Some(mm)])
    case 6 => World(Pool(0, {0}, map[], {}, 3, t6), None, left, [Some(mm)])
    case 7 => World(Pool(0, {0}, map[], {}, 3, t6), None, left, [None])
    case 8 => World(Pool(0, {0}, map[], {}, 3, t6), None, [None], [None])
  }

  lemma NestedWorldsValid(k: nat)
    requires k <= 8
    ensures Valid(NestedWorld(k).pool)
  {
    if k <= 4 {
      NestedWorldsValidEarly(k);
    } else {
      NestedWorldsValidLate(k);
    }
  }

  lemma NestedWorldsValidEarly(k: nat)
    requires k <= 4
    ensures Valid(NestedWorld(k).pool)
  {
    var p := NestedWorld(k).pool;
    if k == 2 || k == 3 {
      assert forall id :: id in p.contexts ==> id < p.next;
    } else if k == 4 {
      assert forall id :: id in p.contexts ==> id < p.next;
      assert forall id :: id in p.modules ==> id < p.next;
    }
  }

  lemma NestedWorldsValidLate(k: nat)
    requires 5 <= k <= 8
    ensures Valid(NestedWorld(k).pool)
  {
    if k == 5 {
      ModuleGoneValid();
    } else {
      BothGoneValid();
      assert NestedWorld(k).pool == NestedWorld(6).pool;
    }
  }

  /** The pool once the module is disposed. */
  lemma ModuleGoneValid()
    ensures Valid(NestedWorld(5).pool)
  {
    NestedWorldsValidEarly(4);
    assert map[2 := ModInfo(1, "m", None)] - {2} == map[];
    assert DisposeModule(NestedWorld(4).pool, Addr(2)) == Ok(NestedWorld(5).pool);
  }

  /** The pool once the module and then its context are disposed. */
  lemma BothGoneValid()
    ensures Valid(NestedWorld(6).pool)
  {
    ModuleGoneValid();
    assert {0, 1} - {1} == {0};
    assert DisposeContext(NestedWorld(5).pool, Addr(1)) == Ok(NestedWorld(6).pool);
  }

  lemma NestedStep(k: nat, w: World, op: Op, w': World)
    requires k < 8 && w == NestedWorld(k) && op == NestedWith()[k] && w' == NestedWorld(k + 1)
    ensures Valid(w.pool) && Allowed(w, op) && Step(w, op) == Ok(w')
  {
    NestedWorldsValid(k);
    if k == 0 {
      NestedAt0(w, op, w');
    } else if k == 1 {
      NestedAt1(w, op, w');
    } else if k == 2 {
      NestedAt2(w, op, w');
    } else if k == 3 {
      NestedAt3(w, op, w');
    } else if k == 4 {
      NestedAt4(w, op, w');
    } else if k == 5 {
      NestedAt5(w, op, w');
    } else if k == 6 {
      NestedAt6(w, op, w');
    } else {
      NestedAt7(w, op, w');
    }
  }

  lemma NestedAt0(w: World, op: Op, w': World)
    requires w == NestedWorld(0) && op == CreateContextCall && w' == NestedWorld(1) && Valid(w.pool)
    ensures Allowed(w, op) && Step(w, op) == Ok(w')
  {
    assert [] + [Some(ContextManager(None))] == w'.contextManagers;
  }

  lemma NestedAt1(w: World, op: Op, w': World)
    requires w == NestedWorld(1) && op == ContextEnterCall(0) && w' == NestedWorld(2) && Valid(w.pool)
    ensures Allowed(w, op) && Step(w, op) == Ok(w')
  {
    assert {0} + {1} == {0, 1};
    var (q, c) := NewContext(w.pool, false);
    assert c == Context(Addr(1), false);
    assert q == w'.pool;
    assert EnterContext(w.pool, ContextManager(None)) == Ok((q, ContextManager(Some(c))));
    assert w.contextManagers[0 := Some(ContextManager(Some(c)))] == w'.contextManagers;
  }

  lemma NestedAt2(w: World, op: Op, w': World)
    requires w == NestedWorld(2) && op == CreateModuleCall(ManagedObject(0, FirstContext), "m")
    requires w' == NestedWorld(3) && Valid(w.pool)
    ensures Allowed(w, op) && Step(w, op) == Ok(w')
  {
    assert [] + [Some(ModuleManager("m", ManagedObject(0, 1), None))] == w'.moduleManagers;
  }

  lemma NestedAt3(w: World, op: Op, w': World)
    requires w == NestedWorld(3) && op == ModuleEnterCall(0) && w' == NestedWorld(4) && Valid(w.pool)
    ensures Allowed(w, op) && Step(w, op) == Ok(w')
  {
    var target := Some(Context(Addr(1), false));
    assert Resolve(w, ManagedObject(0, 1)) == Ok(target);
    ModuleEnteredAt3();
    ModuleEnterStep(w, 0, target, w'.pool, w'.moduleManagers[0].value);
    assert w.moduleManagers[0 := w'.moduleManagers[0]] == w'.moduleManagers;
  }

  /** Entering an empty module manager whose context resolves, when the
      native call succeeds. */
  lemma ModuleEnterStep(w: World, j: nat, target: Option<Context>, q: Pool, m: ModuleManager<CtxPtr>)
    requires Valid(w.pool) && ModuleManagerExists(w, j) && w.moduleManagers[j].value.held.None?
    requires Resolve(w, w.moduleManagers[j].value.context) == Ok(target)
    requires EnterModule(w.pool, w.moduleManagers[j].value, target) == Ok((q, m))
    ensures Step(w, ModuleEnterCall(j)) == Ok(w.(pool := q, moduleManagers := w.moduleManagers[j := Some(m)]))
  {
  }

  lemma ModuleEnteredAt3()
    ensures Valid(NestedWorld(3).pool)
    ensures EnterModule(NestedWorld(3).pool, NestedWorld(3).moduleManagers[0].value, Some(Context(Addr(1), false)))
            == Ok((NestedWorld(4).pool, NestedWorld(4).moduleManagers[0].value))
  {
    NestedWorldsValid(3);
    var p := NestedWorld(3).pool;
    var q := NestedWorld(4).pool;
    assert CreateModule(p, "m", Addr(1), None) == Ok((q, 2));
  }

  lemma NestedAt4(w: World, op: Op, w': World)
    requires w == NestedWorld(4) && op == ModuleExitCall(0) && w' == NestedWorld(5) && Valid(w.pool)
    ensures Allowed(w, op) && Step(w, op) == Ok(w')
  {
    ModuleExitedAt4();
    ModuleExitStep(w, 0, w'.pool, w'.moduleManagers[0].value);
    assert w.moduleManagers[0 := w'.moduleManagers[0]] == w'.moduleManagers;
  }

  /** Leaving a module manager, when the native call succeeds. */
  lemma ModuleExitStep(w: World, j: nat, q: Pool, m: ModuleManager<CtxPtr>)
    requires Valid(w.pool) && ModuleManagerExists(w, j)
    requires ExitModule(w.pool, w.moduleManagers[j].value) == Ok((q, m))
    ensures Step(w, ModuleExitCall(j)) == Ok(w.(pool := q, moduleManagers := w.moduleManagers[j := Some(m)]))
  {
  }

  lemma ModuleExitedAt4()
    ensures Valid(NestedWorld(4).pool)
    ensures ExitModule(NestedWorld(4).pool, NestedWorld(4).moduleManagers[0].value)
            == Ok((NestedWorld(5).pool, NestedWorld(5).moduleManagers[0].value))
  {
    NestedWorldsValid(4);
    assert map[2 := ModInfo(1, "m", None)] - {2} == map[];
    assert DisposeModule(NestedWorld(4).pool, Addr(2)) == Ok(NestedWorld(5).pool);
  }

  lemma NestedAt5(w: World, op: Op, w': World)
    requires w == NestedWorld(5) && op == ContextExitCall(0) && w' == NestedWorld(6) && Valid(w.pool)
    ensures Allowed(w, op) && Step(w, op) == Ok(w')
  {
    ContextExitedAt5();
    ContextExitStep(w, 0, w'.pool, ContextManager(None));
    assert w.contextManagers[0 := w'.contextManagers[0]] == w'.contextManagers;
  }

  /** Leaving a context manager, when the native call succeeds. */
  lemma ContextExitStep(w: World, i: nat, q: Pool, m: ContextManager)
    requires Valid(w.pool) && ContextManagerExists(w, i)
    requires ExitContext(w.pool, w.contextManagers[i].value) == Ok((q, m))
    ensures Step(w, ContextExitCall(i)) == Ok(w.(pool := q, contextManagers := w.contextManagers[i := Some(m)]))
  {
  }

  lemma ContextExitedAt5()
    ensures Valid(NestedWorld(5).pool)
    ensures ExitContext(NestedWorld(5).pool, NestedWorld(5).contextManagers[0].value)
            == Ok((NestedWorld(6).pool, ContextManager(None)))
  {
    NestedWorldsValid(5);
    assert {0, 1} - {1} == {0};
    assert DisposeContext(NestedWorld(5).pool, Addr(1)) == Ok(NestedWorld(6).pool);
  }

  lemma NestedAt6(w: World, op: Op, w': World)
    requires w == NestedWorld(6) && op == ModuleRelease(0) && w' == NestedWorld(7) && Valid(w.pool)
    ensures Allowed(w, op) && Step(w, op) == Ok(w')
  {
    assert w.moduleManagers[0 := None] == [None];
  }

  lemma NestedAt7(w: World, op: Op, w': World)
    requires w == NestedWorld(7) && op == ContextRelease(0) && w' == NestedWorld(8) && Valid(w.pool)
    ensures Allowed(w, op) && Step(w, op) == Ok(w')
  {
    assert w.contextManagers[0 := None] == [None];
  }

  /** If the calls from `k + 1` on are allowed and end in the final world,
      so are the calls from `k` on. */
  lemma NestedLink(k: nat, w: World, w': World)
    requires k < 8 && w == NestedWorld(k) && w' == NestedWorld(k + 1)
    requires Valid(w'.pool)
    requires Disciplined(w', NestedWith()[k + 1..])
    requires Run(w', NestedWith()[k + 1..]) == Ok(NestedWorld(8))
    ensures Valid(w.pool)
    ensures Disciplined(w, NestedWith()[k..])
    ensures Run(w, NestedWith()[k..]) == Ok(NestedWorld(8))
  {
    var ops := NestedWith();
    NestedStep(k, w, ops[k], w');
    assert ops[k..][0] == ops[k];
    assert ops[k..][1..] == ops[k + 1..];
    DisciplinedUnfold(w, ops[k..]);
    RunUnfold(w, ops[k..]);
  }

  /** The calls of `NestedWith` from `k` on are allowed and end in the
      final world. */
  lemma {:induction false} NestedSuffix(k: nat)
    requires k <= 8
    ensures Valid(NestedWorld(k).pool)
    ensures Disciplined(NestedWorld(k), NestedWith()[k..])
    ensures Run(NestedWorld(k), NestedWith()[k..]) == Ok(NestedWorld(8))
    decreases 8 - k
  {
    NestedWorldsValid(k);
    if k == 8 {
      assert NestedWith()[8..] == [];
    } else {
      NestedSuffix(k + 1);
      NestedLink(k, NestedWorld(k), NestedWorld(k + 1));
    }
  }

  /** The nesting a `with` statement produces is allowed by the rules, and it
      leaves only the global context live. */
  lemma NestedWithIsDisciplined(w: World, ops: seq<Op>)
    requires w == Start() && ops == NestedWith()
    ensures Disciplined(w, ops)
    ensures Run(w, ops).Ok? && Live(Run(w, ops).value.pool) == {w.pool.globalCtx}
  {
    var w8 := NestedWorld(8);
    assert Disciplined(w, ops) && Run(w, ops) == Ok(w8) by {
      NestedSuffix(0);
      assert ops[0..] == ops;
    }
    assert Live(w8.pool) == {0};
  }
}

=== FILE: tokenize.dfy ===
/** The input filter of the command-line driver: each line is stripped of
    surrounding whitespace; empty lines and `;` comment lines are dropped; the
    rest are split on runs of whitespace and handed on, one token list per
    line, in input order.  Whitespace is what Python's `str.strip` and
    `str.split` treat as whitespace. */
module Tokenize {

  /** Python's whitespace characters (`str.isspace`). */
  predicate IsSpace(c: char) {
    || c == ' ' || c == '\t' || c == '\n' || c == '\r' || c == '\U{B}' || c == '\U{C}'
    || c == '\U{1C}' || c == '\U{1D}' || c == '\U{1E}' || c == '\U{1F}'
    || c == '\U{85}' || c == '\U{A0}' || c == '\U{1680}'
    || ('\U{2000}' <= c <= '\U{200A}')
    || c == '\U{2028}' || c == '\U{2029}' || c == '\U{202F}' || c == '\U{205F}' || c == '\U{3000}'
  }

  ghost predicate AllSpace(s: string) {
    forall k :: 0 <= k < |s| ==> IsSpace(s[k])
  }

  ghost predicate NoSpace(s: string) {
    forall k :: 0 <= k < |s| ==> !IsSpace(s[k])
  }

  /** `s` without its leading whitespace. */
  function TrimLeft(s: string): (r: string)
    ensures |r| <= |s| && r == s[|s| - |r|..]
    ensures AllSpace(s[..|s| - |r|])
    ensures r == [] || !IsSpace(r[0])
    decreases |s|
  {
    if s != [] && IsSpace(s[0]) then
      var r := TrimLeft(s[1..]);
      assert s[..|s| - |r|] == [s[0]] + s[1..][..|s| - 1 - |r|];
      r
    else s
  }

  /** `s` without its trailing whitespace. */
  function TrimRight(s: string): (r: string)
    ensures |r| <= |s| && r == s[..|r|]
    ensures AllSpace(s[|r|..])
    ensures r == [] || !IsSpace(r[|r| - 1])
    decreases |s|
  {
    if s != [] && IsSpace(s[|s| - 1]) then
      var r := TrimRight(s[..|s| - 1]);
      assert s[|r|..] == s[..|s| - 1][|r|..] + [s[|s| - 1]];
      r
    else s
  }

  /** `str.strip()`: `s` without the whitespace at either end. */
  function Strip(s: string): (r: string)
    ensures r == [] || (!IsSpace(r[0]) && !IsSpace(r[|r| - 1]))
  {
    TrimRight(TrimLeft(s))
  }

  /** What `Strip` keeps is the infix of `s` that starts where the leading
      whitespace ends, and what it removes on either side is whitespace. */
  lemma StripIsInfix(s: string, t: string, r: string)
    requires t == TrimLeft(s) && r == Strip(s)
    ensures var a := |s| - |t|;
            && a + |r| <= |s| && s[a..a + |r|] == r
            && AllSpace(s[..a]) && AllSpace(s[a + |r|..])
  {
    StripKeepsMiddle(s, t, r);
    StripDropsTail(s, t, r);
  }

  lemma StripKeepsMiddle(s: string, t: string, r: string)
    requires t == TrimLeft(s) && r == TrimRight(t)
    ensures |s| - |t| + |r| <= |s| && s[|s| - |t|..|s| - |t| + |r|] == r
  {
    PrefixOfSuffix(s, t, r);
  }

  /** A prefix of a suffix is an infix. */
  lemma PrefixOfSuffix<T>(s: seq<T>, t: seq<T>, r: seq<T>)
    requires |t| <= |s| && t == s[|s| - |t|..] && |r| <= |t| && r == t[..|r|]
    ensures s[|s| - |t|..|s| - |t| + |r|] == r
  {
  }

  lemma StripDropsTail(s: string, t: string, r: string)
    requires t == TrimLeft(s) && r == TrimRight(t)
    ensures |s| - |t| + |r| <= |s| && AllSpace(s[|s| - |t| + |r|..])
  {
    SuffixOfSuffix(s, t, |r|);
  }

  /** A suffix of a suffix is a suffix. */
  lemma SuffixOfSuffix<T>(s: seq<T>, t: seq<T>, n: nat)
    requires |t| <= |s| && t == s[|s| - |t|..] && n <= |t|
    ensures s[|s| - |t| + n..] == t[n..]
  {
  }

  /** The length of the longest whitespace-free prefix of `s`. */
  function WordLength(s: string): (n: nat)
    ensures n <= |s| && NoSpace(s[..n])
    ensures n == |s| || IsSpace(s[n])
    decreases |s|
  {
    if s == [] || IsSpace(s[0]) then 0 else 1 + WordLength(s[1..])
  }

  /** `str.split()`: the maximal whitespace-free runs of `s`, in order. */
  function Split(s: string): (r: seq<string>)
    ensures r == [] <==> AllSpace(s)
    decreases |s|
  {
    var t := TrimLeft(s);
    if t == [] then []
    else
      var n := WordLength(t);
      [t[..n]] + Split(t[n..])
  }

  /** Every token `str.split()` returns is non-empty and free of whitespace. */
  lemma {:induction false} SplitGivesWords(s: string)
    ensures Words(Split(s))
    decreases |s|
  {
    var t := TrimLeft(s);
    if t != [] {
      var n := WordLength(t);
      SplitGivesWords(t[n..]);
      SplitWordsStep(s, t, n);
    }
  }

  /** Every element is a non-empty, whitespace-free word. */
  ghost predicate Words(ws: seq<string>) {
    forall k :: 0 <= k < |ws| ==> ws[k] != [] && NoSpace(ws[k])
  }

  lemma SplitWordsStep(s: string, t: string, n: nat)
    requires t == TrimLeft(s) && t != [] && n == WordLength(t)
    requires Words(Split(t[n..]))
    ensures Words(Split(s))
  {
    var w := t[..n];
    var rest := Split(t[n..]);
    assert n > 0;
    assert Split(s) == [w] + rest;
    forall k | 0 <= k < 1 + |rest|
      ensures ([w] + rest)[k] != [] && NoSpace(([w] + rest)[k])
    {
      if k > 0 {
        assert ([w] + rest)[k] == rest[k - 1];
      }
    }
  }

  /** The characters of `s` that are not whitespace. */
  function RemoveSpaces(s: string): string
    decreases |s|
  {
    if s == [] then []
    else if IsSpace(s[0]) then RemoveSpaces(s[1..])
    else [s[0]] + RemoveSpaces(s[1..])
  }

  function Concat(ws: seq<string>): string {
    if ws == [] then [] else ws[0] + Concat(ws[1..])
  }

  /** Words joined by single spaces. */
  function JoinSpaced(ws: seq<string>): string {
    if ws == [] then [] else if |ws| == 1 then ws[0] else ws[0] + [' '] + JoinSpaced(ws[1..])
  }

  lemma {:induction false} RemoveSpacesAppend(a: string, b: string)
    ensures RemoveSpaces(a + b) == RemoveSpaces(a) + RemoveSpaces(b)
    decreases |a|
  {
    if a == [] {
      assert a + b == b;
    } else {
      assert (a + b)[0] == a[0];
      assert (a + b)[1..] == a[1..] + b;
      RemoveSpacesAppend(a[1..], b);
    }
  }

  lemma {:induction false} RemoveSpacesOfSpaces(s: string)
    requires AllSpace(s)
    ensures RemoveSpaces(s) == []
    decreases |s|
  {
    if s != [] {
      RemoveSpacesOfSpaces(s[1..]);
    }
  }

  lemma {:induction false} RemoveSpacesOfWord(s: string)
    requires NoSpace(s)
    ensures RemoveSpaces(s) == s
    decreases |s|
  {
    if s != [] {
      RemoveSpacesOfWord(s[1..]);
    }
  }

  lemma {:induction false} RemoveSpacesTrimLeft(s: string)
    ensures RemoveSpaces(TrimLeft(s)) == RemoveSpaces(s)
    decreases |s|
  {
    if s != [] && IsSpace(s[0]) {
      RemoveSpacesTrimLeft(s[1..]);
    }
  }

  lemma {:induction false} RemoveSpacesWord(t: string)
    ensures RemoveSpaces(t) == t[..WordLength(t)] + RemoveSpaces(t[WordLength(t)..])
    decreases |t|
  {
    if t != [] && !IsSpace(t[0]) {
      RemoveSpacesWord(t[1..]);
      assert t[..WordLength(t)] == [t[0]] + t[1..][..WordLength(t[1..])];
      assert t[WordLength(t)..] == t[1..][WordLength(t[1..])..];
    }
  }

  /** Splitting loses exactly the whitespace: the tokens, run together, are
      the non-whitespace characters of the line in order. */
  lemma {:induction false} SplitKeepsEveryOtherChar(s: string)
    ensures Concat(Split(s)) == RemoveSpaces(s)
    decreases |s|
  {
    var t := TrimLeft(s);
    RemoveSpacesTrimLeft(s);
    if t != [] {
      var n := WordLength(t);
      RemoveSpacesWord(t);
      SplitKeepsEveryOtherChar(t[n..]);
      assert Split(s) == [t[..n]] + Split(t[n..]);
      assert Split(s)[1..] == Split(t[n..]);
    }
  }

  /** A line splits into no tokens exactly when it is all whitespace. */
  lemma SplitEmptyIffBlank(s: string)
    ensures Split(s) == [] <==> AllSpace(s)
  {
    var t := TrimLeft(s);
    assert s == s[..|s| - |t|] + t;
    if t != [] {
      assert !IsSpace(s[|s| - |t|]);
    }
  }

  lemma {:induction false} TrimLeftOfSpaced(ws: string, rest: string)
    requires AllSpace(ws) && (rest == [] || !IsSpace(rest[0]))
    ensures TrimLeft(ws + rest) == rest
    decreases |ws|
  {
    if ws != [] {
      assert (ws + rest)[0] == ws[0];
      assert (ws + rest)[1..] == ws[1..] + rest;
      TrimLeftOfSpaced(ws[1..], rest);
    } else {
      assert ws + rest == rest;
    }
  }

  lemma {:induction false} WordLengthOfWord(w: string, rest: string)
    requires NoSpace(w) && (rest == [] || IsSpace(rest[0]))
    ensures WordLength(w + rest) == |w|
    decreases |w|
  {
    if w == [] {
      assert w + rest == rest;
    } else {
      assert (w + rest)[0] == w[0];
      assert (w + rest)[1..] == w[1..] + rest;
      WordLengthOfWord(w[1..], rest);
    }
  }

  /** A word followed by whitespace or the end of the line is the first token. */
  lemma SplitFirstWord(w: string, rest: string)
    requires w != [] && NoSpace(w) && (rest == [] || IsSpace(rest[0]))
    ensures Split(w + rest) == [w] + Split(rest)
  {
    var s := w + rest;
    TrimLeftOfSpaced([], s);
    assert [] + s == s;
    WordLengthOfWord(w, rest);
    assert s[..|w|] == w && s[|w|..] == rest;
  }

  /** Leading whitespace does not change the tokens. */
  lemma SplitLeadingSpace(c: char, rest: string)
    requires IsSpace(c)
    ensures Split([c] + rest) == Split(rest)
  {
    assert ([c] + rest)[1..] == rest;
  }

  /** A word, one space, then anything: the word is the first token. */
  lemma SplitWordThenSpace(w: string, tail: string)
    requires w != [] && NoSpace(w)
    ensures Split(w + ([' '] + tail)) == [w] + Split(tail)
  {
    SplitFirstWord(w, [' '] + tail);
    SplitLeadingSpace(' ', tail);
  }

  /** A word on its own is its only token. */
  lemma SplitOneWord(w: string)
    requires w != [] && NoSpace(w)
    ensures Split(w) == [w]
  {
    SplitFirstWord(w, []);
    assert w + [] == w;
  }

  lemma JoinSpacedCons(ws: seq<string>)
    requires |ws| > 1
    ensures JoinSpaced(ws) == ws[0] + ([' '] + JoinSpaced(ws[1..]))
  {
  }

  /** Splitting words joined by single spaces gives the words back. */
  lemma {:induction false} SplitJoinRoundTrip(ws: seq<string>)
    requires forall k :: 0 <= k < |ws| ==> ws[k] != [] && NoSpace(ws[k])
    ensures Split(JoinSpaced(ws)) == ws
    decreases |ws|
  {
    if |ws| == 1 {
      SplitOneWord(ws[0]);
    } else if |ws| > 1 {
      SplitJoinRoundTrip(ws[1..]);
      SplitJoinStep(ws);
    }
  }

  lemma SplitJoinStep(ws: seq<string>)
    requires |ws| > 1 && ws[0] != [] && NoSpace(ws[0])
    requires Split(JoinSpaced(ws[1..])) == ws[1..]
    ensures Split(JoinSpaced(ws)) == ws
  {
    var tail := JoinSpaced(ws[1..]);
    JoinSpacedCons(ws);
    SplitWordThenSpace(ws[0], tail);
    assert [ws[0]] + ws[1..] == ws;
  }

  // ---------------------------------------------------------------------------
  // Lines

  /** A line survives the filter: something is left after stripping and it
      does not start with `;`. */
  predicate Kept(line: string) {
    var s := Strip(line);
    s != [] && s[0] != ';'
  }

  /** `tokenize_stdin`: the token lists handed to the callback, one per call, in order. */
  function TokenizeLines(lines: seq<string>): (r: seq<seq<string>>)
    ensures |r| <= |lines|
    ensures forall k :: 0 <= k < |r| ==> r[k] != []
  {
    if lines == [] then []
    else
      var s := Strip(lines[0]);
      var rest := TokenizeLines(lines[1..]);
      if s == [] || s[0] == ';' then rest
      else
        var tokens := Split(s);
        if tokens != [] then [tokens] + rest else rest
  }

  /** Input in which no line survives the filter never reaches the callback. */
  lemma {:induction false} NothingKeptIsSilent(lines: seq<string>)
    ensures (forall k :: 0 <= k < |lines| ==> !Kept(lines[k])) ==> TokenizeLines(lines) == []
    decreases |lines|
  {
    if lines != [] {
      assert forall k :: 0 <= k < |lines| - 1 ==> lines[1..][k] == lines[k + 1];
      NothingKeptIsSilent(lines[1..]);
    }
  }

  function KeptLines(lines: seq<string>): (r: seq<string>)
    ensures |r| <= |lines|
    ensures forall k :: 0 <= k < |r| ==> Kept(r[k])
  {
    if lines == [] then []
    else if Kept(lines[0]) then [lines[0]] + KeptLines(lines[1..])
    else KeptLines(lines[1..])
  }

  /** A kept line always has at least one token, so the callback's guard on
      an empty token list never fires. */
  lemma KeptLineHasTokens(line: string)
    requires Kept(line)
    ensures Split(Strip(line)) != []
  {
    var s := Strip(line);
    SplitEmptyIffBlank(s);
    assert !IsSpace(s[0]);
  }

  /** The callback runs exactly once per kept line, in input order, and
      receives that line's whitespace-separated tokens. */
  lemma {:induction false} TokenizeIsSplitOfKept(lines: seq<string>)
    ensures TokenizeLines(lines) == SplitEach(KeptLines(lines))
    decreases |lines|
  {
    if lines != [] {
      TokenizeIsSplitOfKept(lines[1..]);
      TokenizeStep(lines);
    }
  }

  lemma TokenizeStep(lines: seq<string>)
    requires lines != []
    requires TokenizeLines(lines[1..]) == SplitEach(KeptLines(lines[1..]))
    ensures TokenizeLines(lines) == SplitEach(KeptLines(lines))
  {
    if Kept(lines[0]) {
      TokenizeKeptStep(lines);
    } else {
      assert KeptLines(lines) == KeptLines(lines[1..]);
    }
  }

  lemma TokenizeKeptStep(lines: seq<string>)
    requires lines != [] && Kept(lines[0])
    requires TokenizeLines(lines[1..]) == SplitEach(KeptLines(lines[1..]))
    ensures TokenizeLines(lines) == SplitEach(KeptLines(lines))
  {
    var s := Strip(lines[0]);
    KeptLineHasTokens(lines[0]);
    TokenizeKeptLine(lines, s, Split(s));
    KeptLinesKeptLine(lines);
    SplitEachCons(lines[0], KeptLines(lines[1..]));
  }

  lemma TokenizeKeptLine(lines: seq<string>, s: string, tokens: seq<string>)
    requires lines != [] && s == Strip(lines[0]) && s != [] && s[0] != ';'
    requires tokens == Split(s) && tokens != []
    ensures TokenizeLines(lines) == [tokens] + TokenizeLines(lines[1..])
  {
  }

  lemma KeptLinesKeptLine(lines: seq<string>)
    requires lines != [] && Kept(lines[0])
    ensures KeptLines(lines) == [lines[0]] + KeptLines(lines[1..])
  {
  }

  lemma SplitEachCons(line: string, rest: seq<string>)
    ensures SplitEach([line] + rest) == [Split(Strip(line))] + SplitEach(rest)
  {
    assert ([line] + rest)[1..] == rest;
  }

  /** Each line's tokens, in order. */
  function SplitEach(lines: seq<string>): seq<seq<string>> {
    if lines == [] then [] else [Split(Strip(lines[0]))] + SplitEach(lines[1..])
  }

  /** A comment line is dropped even when the `;` is indented. */
  lemma IndentedCommentIsDropped(indent: string, rest: string)
    requires AllSpace(indent) && rest != [] && rest[0] == ';'
    ensures !Kept(indent + rest)
  {
    TrimLeftOfSpaced(indent, rest);
    assert !IsSpace(rest[0]);
    assert rest[..1] == [rest[0]];
    assert TrimRight(rest)[0] == ';';
  }

  /** A line of whitespace only is dropped. */
  lemma BlankLineIsDropped(line: string)
    requires AllSpace(line)
    ensures !Kept(line)
  {
  }
}
